=== FILE: README.md ===
# Exact model of the vines bowl transducer, harmonic cascade and contrast set-up

This project models the parts of AndrewGibbs/vines that are exact bookkeeping around the
numerical engine. It does not model the numerical engine itself. The parts are:

- **Bowl transducer** (`bowl_transducer` in `vines/fields/transducers.py`):
  - the equal-area tiling of a spherical cap into point sources, after Deserno's
    equidistribution scheme;
  - the re-orientation of the cap onto the x or z axis;
  - the field as a thresholded sum of monopoles, scaled by the source area.
- **Power calibration** (`normalise_power`): the 500-point radial quadrature and the
  amplitude `p0 = sqrt(2 rho c0 P / integral)`.
- **Nonlinear HIFU demo** (`demo/hifu/transducer_nonlinear.py`):
  - the per-harmonic wavenumbers;
  - the incident field on the voxel grid, with the values near the bowl's shell zeroed;
  - the column-major reshapes;
  - the cascade in which harmonic h is the volume potential of a forcing built from the
    harmonics below it.
- **Density-contrast demo** (`demo/acoustics/sphere_density_contrast.py`):
  - the material grids `Mr`, `Dr`, `rho_ratio` and `RHO`, built from the scatterer's mask;
  - the masked right-hand side and its flattening;
  - the reshaping of the solution into the total field.

All arithmetic is exact over `real`. The transcendental functions (pi, sin, cos, arcsin,
sqrt, exp) are fields of a `Maths.Lib` value. `Maths.Lawful` states the only identities
the proofs use:

- pi > 0;
- sin² + cos² = 1;
- sqrt is the nonnegative square root.

Complex numbers are pairs of reals. A voxel grid is `seq<seq<seq<T>>>`. Flattening always
follows numpy's `order='F'`: voxel (i, j, k) sits at position i + L j + L M k.

Where Python or numpy stops with an exception, the model returns `Outcome.Failure`:

- a Python float division by zero;
- `int()` of NaN or infinity;
- an unknown axis;
- an empty harmonic stack;
- a vector that cannot be reshaped.

numpy float arithmetic does not raise: it yields inf or NaN silently. Where such a value
would become a result, the model reports it as a failure (`NonFiniteAmplitude`,
`NonFiniteField`).

Modules:

| file | module | contents |
|---|---|---|
| outcome.dfy | Outcome | `Option`, `Result`, `Error` |
| maths.dfy | Maths | complex arithmetic, `Pow`, `Sum`, round-half-to-even, `Lib`/`Lawful`, the Green's function, and the order, division and scaling facts on reals and complex numbers that the other modules use |
| grids.dfy | Grids | grids, column-major `FlatIndex`/`Unravel`/`Flatten`/`Unflatten`, masked assignment |
| bowl.dfy | Bowl | tiling plan, band and azimuth angles, `TileBowl`, axis parsing, re-orientation |
| transducer.dfy | Transducer | distance threshold, field sum, `EvalSource`, `BowlTransducer` |
| calibration.dfy | Calibration | quadrature radii, disk plane, power integral, `NormalisePower` |
| harmonics.dfy | Harmonics | wavenumbers, forcing table, cascade (corrected and as written), near-shell zeroing, incident grid |
| scattering.dfy | Scattering | contrast grids, right-hand side, reconstruction |

## Model

| member | source | states |
|---|---|---|
| Maths.RoundHalfEven | vines/fields/transducers.py:21 | `np.round` gives an integer within 1/2 of its argument, and an exact tie goes to the even integer |
| Maths.RoundHalfEvenUnique | vines/fields/transducers.py:21 | those two conditions determine the rounded value uniquely |
| Bowl.PlanTiling | vines/fields/transducers.py:14-23 | it fails with ZeroDivision exactly when f = 0. It fails with NonFiniteInteger exactly when f ≠ 0 and either an arcsine argument (R_a/f or R/f) lies outside [-1, 1] or the tile area is not positive. On success: theta1 = arcsin(R_a/f) and theta2 = arcsin(R/f); the area is 2 pi (cos theta1 - cos theta2) / N and is positive; R² ≤ f²; M_theta = round((theta2 - theta1) / sqrt(area)). With at least one band: theta1 < theta2, and d_phi = area / ((theta2 - theta1) / M_theta) > 0 |
| Bowl.BandAngleWithin | vines/fields/transducers.py:27-28 | every band angle lies strictly between theta1 and theta2 |
| Bowl.AzimuthsDistinct | vines/fields/transducers.py:30-31 | the azimuths of a band lie in [0, 2 pi) and are pairwise distinct |
| Bowl.OnSphereRadius | vines/fields/transducers.py:32-34 | each generated point lies on the sphere of radius `focal_length` about the origin |
| Bowl.TileArea | vines/fields/transducers.py:19 | the unit-sphere cap area between theta1 and theta2, 2 pi (cos theta1 - cos theta2), shared among the N sources; `Bowl.PlanTiling` states when it is used and that it is positive on success |
| Bowl.BandAngle | vines/fields/transducers.py:28 | the polar angle of band m, (theta2 - theta1)(m + 1/2) / M_theta + theta1; `Bowl.BandAngleWithin` states that it lies strictly inside (theta1, theta2) |
| Bowl.AzimuthCount | vines/fields/transducers.py:29 | the source count of band m, round(2 pi sin(theta_m) / d_phi), rounded half to even as `np.round` does (`Maths.RoundHalfEven`) |
| Bowl.Azimuth | vines/fields/transducers.py:31 | phi_n · M_phi = 2 pi n, so the azimuths divide the circle into M_phi equal steps starting at phi_0 = 0 |
| Bowl.OnSphere | vines/fields/transducers.py:32-34 | the point (f sin theta cos phi, f sin theta sin phi, f cos theta); `Bowl.OnSphereRadius` states that it lies on the sphere of radius f |
| Bowl.Tiling | vines/fields/transducers.py:27-35 | the bands' sources in loop order; there are exactly as many as the band sum of max(M_phi(m), 0) |
| Bowl.TilingCount | vines/fields/transducers.py:27-35 | the tiling holds exactly sum over m < M_theta of max(M_phi(m), 0) sources |
| Bowl.TilingOnSphere | vines/fields/transducers.py:27-34 | every tiled source is at distance `focal_length` from the origin |
| Bowl.TileBowl | vines/fields/transducers.py:24-35 | the nested loops append the bands' sources in order; `n_count` ends equal to the number of sources and to the band sum |
| Bowl.ParseAxis | vines/fields/transducers.py:37-47 | the substring tests of lines 37 and 41, the z test first; `Bowl.ParseAxisCases` states which strings select which branch |
| Bowl.ParseAxisCases | vines/fields/transducers.py:37-41 | the z branch is taken for "" and "z" (both are substrings of 'z'); the x branch, tested second, is taken only for "x"; every other string takes neither branch |
| Bowl.Reorient | vines/fields/transducers.py:37-47 | a point at distance d from the origin ends at distance d from (0, 0, focus[2]) along z or from (focus[0], 0, 0) along x |
| Bowl.ReorientIsometry | vines/fields/transducers.py:37-47 | both re-orientations preserve the distance between any two points |
| Bowl.ReorientAll | vines/fields/transducers.py:37-47 | re-orienting keeps the number of sources and moves each one's centre distance onto the axis centre |
| Bowl.ReorientAllIsometry | vines/fields/transducers.py:37-47 | re-orienting the source set keeps its size and every pairwise distance |
| Transducer.ContributesIff | vines/fields/transducers.py:67-70 | a source contributes exactly when its squared distance exceeds 1e-6 |
| Transducer.Passing | vines/fields/transducers.py:70 | a source is among the passing sources exactly when it is among the sources and passes the distance test; there are never more of them than sources |
| Transducer.PassingCounts | vines/fields/transducers.py:66-71 | the filter keeps multiplicities: a source that passes the test occurs in the passing list as often as among the sources, and one that fails it not at all |
| Transducer.PointField | vines/fields/transducers.py:65-72 | the running sum `temp` after the inner loop; `Transducer.PointFieldIsFilteredSum` and `Transducer.NoPassingSource` state its value |
| Transducer.PointFieldIsFilteredSum | vines/fields/transducers.py:64-72 | the accumulated field equals the plain sum of G(dist) over the passing sources only |
| Transducer.NoPassingSource | vines/fields/transducers.py:65-72 | where no source passes the test, the field is 0 |
| Transducer.PointFieldAppend | vines/fields/transducers.py:65-72 | superposition: the field of two source lists joined is the sum of their fields |
| Transducer.PointFieldReorient | vines/fields/transducers.py:66-71 | moving the sources and the point by the same re-orientation leaves the field unchanged |
| Transducer.Radiate | vines/fields/transducers.py:76-79 | one entry per point, equal to `a` times the thresholded Green's sum |
| Transducer.EvalSource | vines/fields/transducers.py:61-73 | the outer loop yields, for every point, the sum of G(dist) over the passing sources |
| Transducer.FieldAt | vines/fields/transducers.py:64-72 | the inner loop over the sources adds G(dist) exactly for those further than 1e-3 from the point, giving their plain sum |
| Transducer.BowlTransducer | vines/fields/transducers.py:1-79 | tiling errors pass through, and an unknown axis fails. On success: the sources are the tiling re-oriented onto the chosen axis; their count is the band sum; every source is at distance f from the axis centre; the field is `a` times the thresholded sum at every point |
| Calibration.DiskPlane | vines/fields/transducers.py:89 | for R² ≤ f² the sampling plane lies at or before the focal plane x = f |
| Calibration.CalibrationPoints | vines/fields/transducers.py:87-92 | 500 points; sample i is (x_disk, 0, r_i) with r_i = i R / 499, the same radius that weights it in the rule of line 96, so z runs from 0 (first) to R (last) |
| Calibration.PowerIntegral | vines/fields/transducers.py:96 | the rule 2 pi (sum of abs(p_i)² r_i) R / 500; `Calibration.PowerIntegralNonnegative`, `Calibration.UniformQuadrature` and `Calibration.PowerRoundTrip` state its properties |
| Calibration.PowerIntegralNonnegative | vines/fields/transducers.py:96 | for R ≥ 0 the estimated power is never negative |
| Calibration.QuadratureRadius | vines/fields/transducers.py:85-87 | the radii run from 0 (first) to R (500th) |
| Calibration.QuadratureEquallySpaced | vines/fields/transducers.py:87 | consecutive radii are R / 499 apart |
| Calibration.DiskPlaneBetween | vines/fields/transducers.py:89 | for 0 < R < f the sampling plane lies strictly between the rim plane f - sqrt(f² - R²) and f |
| Calibration.CalibrationPressure | vines/fields/transducers.py:97 | it fails exactly on a zero integral or a negative ratio. Otherwise p0 ≥ 0 and p0² · integral = 2 rho c0 P |
| Calibration.NormalisePower | vines/fields/transducers.py:82-98 | tiling errors pass through. Once the tiling succeeds, the x-axis bowl field always exists, and the call fails (NonFiniteAmplitude) exactly when its quadrature is 0 or 2 rho c0 P / integral is negative. On success p0 ≥ 0, and the quadrature of the p0-scaled samples equals 2 rho c0 P exactly (the power round trip) |
| Calibration.CalibratedPower | vines/fields/transducers.py:96-97 | whenever an amplitude is returned, applying it to the same samples makes the quadrature equal 2 rho c0 P exactly |
| Calibration.PowerRoundTrip | vines/fields/transducers.py:96-97 | scaling every sample by p0 multiplies the quadrature by p0² |
| Calibration.SampleSumScale | vines/fields/transducers.py:96 | scaling every sample by p0 multiplies the sum of abs(p_i)² r_i by p0² |
| Calibration.UniformQuadrature | vines/fields/transducers.py:85-96 | for samples of constant squared magnitude abs(p_i)² = c the rule returns pi c R², the exact disk integral |
| Harmonics.Attenuation | demo/hifu/transducer_nonlinear.py:49-52 | at the 1 MHz reference frequency the attenuation is alpha0; for f ≥ 0 and alpha0 ≥ 0 it is never negative |
| Harmonics.Wavenumber | demo/hifu/transducer_nonlinear.py:76 | c Re k = 2 pi f (the dispersion relation); for f ≥ 0 and alpha0 ≥ 0, Im k ≥ 0, so the wave decays |
| Harmonics.WaterAttenuation | demo/hifu/transducer_nonlinear.py:42-52 | for the demo's water (alpha0 = 0.217, eta = 2) the attenuation is 0.26257 at f1 = 1.1 MHz and 1.05028 at the second harmonic 2.2 MHz |
| Harmonics.WavenumberSchedule | demo/hifu/transducer_nonlinear.py:149-150 | Re k_h = (h+1) Re k_1 and Im k_h = (h+1)^eta Im k_1 (the attenuation law of lines 49-52, and k1 of line 76) |
| Harmonics.SourceTerm | demo/hifu/transducer_nonlinear.py:161-174 | the forcing of harmonic h vanishes wherever all the harmonics below h vanish |
| Harmonics.SourceTermZero | demo/hifu/transducer_nonlinear.py:161-174 | the 2nd-harmonic forcing is zero exactly where P[0] is; the 3rd exactly where P[0] or P[1] is; the 4th and 5th wherever all their product terms vanish |
| Harmonics.SourceTermQuadratic | demo/hifu/transducer_nonlinear.py:161-174 | each forcing is quadratic: scaling the lower harmonics by t scales it by t² |
| Harmonics.ForcingLocal | demo/hifu/transducer_nonlinear.py:161-174 | the forcing at a voxel depends only on the lower harmonics at that voxel |
| Harmonics.ForcingReadsLower | demo/hifu/transducer_nonlinear.py:161-174 | the forcing of harmonic h reads only P[0..h-1]; the rest of the stack is irrelevant |
| Harmonics.Propagate | demo/hifu/transducer_nonlinear.py:176-188 | the result is an L×M×N grid whose column-major flattening is the volume potential at k_h applied to the flattened forcing |
| Harmonics.StackPrefix | demo/hifu/transducer_nonlinear.py:147-188 | computing more harmonics never changes the ones already computed |
| Harmonics.StackRecurrence | demo/hifu/transducer_nonlinear.py:148-188 | harmonic h is the reshaped volume potential, at k_h, of the flattened forcing from the harmonics below h |
| Harmonics.Cascade | demo/hifu/transducer_nonlinear.py:147-188 | it succeeds exactly when 1 ≤ n_harm ≤ 5 and either n_harm = 1 or rho, c ≠ 0. Fewer than one harmonic fails with EmptyStack. With two or more harmonics a zero rho or c fails with ZeroDivision (a single harmonic never enters the loop of line 148). More than five fails with UnsupportedHarmonic. On success: P[0] is the incident field and each later harmonic obeys the recurrence |
| Harmonics.RunCascade | demo/hifu/transducer_nonlinear.py:116-188 | the loop over a zero-filled stack writes P[h] once, in increasing h, and computes `Cascade` |
| Harmonics.CascadeAsWritten | demo/hifu/transducer_nonlinear.py:148-188 | the loop as written gives one field per harmonic and carries the last forcing forward |
| Harmonics.AsWrittenAgrees | demo/hifu/transducer_nonlinear.py:161-174 | up to five harmonics the loop as written computes the cascade |
| Harmonics.AsWrittenStaleForcing | demo/hifu/transducer_nonlinear.py:161-176 | with n_harm = 6, harmonics 4 and 5 are driven by the same forcing |
| Harmonics.NearShell | demo/hifu/transducer_nonlinear.py:105-107 | the test abs(dist(pt, (focus[0], 0, 0)) - roc) < 5e-4; `Harmonics.NearShellIff` states it without the square root |
| Harmonics.NearShellIff | demo/hifu/transducer_nonlinear.py:105-107 | for roc ≥ 5e-4, a point is near the shell exactly when its squared distance from (focus[0], 0, 0) lies strictly between (roc - 5e-4)² and (roc + 5e-4)² |
| Harmonics.OnShellIsNear | demo/hifu/transducer_nonlinear.py:105-107 | every point exactly on the shell passes the test |
| Harmonics.BowlSourcesNearShell | demo/hifu/transducer_nonlinear.py:101-108 | every source of the x-oriented bowl with focal length roc is near the shell |
| Harmonics.ZeroNearShell | demo/hifu/transducer_nonlinear.py:105-108 | near-shell entries become 0 and all others are unchanged |
| Harmonics.ZeroNearShellIdempotent | demo/hifu/transducer_nonlinear.py:108 | zeroing twice is zeroing once |
| Harmonics.IncidentField | demo/hifu/transducer_nonlinear.py:76-118 | c = 0 fails with ZeroDivision (line 76 divides by c). Otherwise tiling errors pass through, and once the tiling succeeds the field fails exactly when the power calibration does, with the same error. On success: near-shell voxels are 0, and voxel (i, j, k) holds p0 times the field computed for flat point i + L j + L M k |
| Harmonics.IncidentVoxels | demo/hifu/transducer_nonlinear.py:97-118 | after zeroing, scaling and the column-major reshape, each voxel receives the value computed at its own point |
| Grids.Flatten | demo/hifu/transducer_nonlinear.py:97 | an L×M×N grid flattens to a vector of length L M N; `Grids.FlattenAt` states where each voxel goes |
| Grids.Unflatten | demo/hifu/transducer_nonlinear.py:118 | a vector of length L M N reshapes to an L×M×N grid; `Grids.UnflattenFlatten` and `Grids.FlattenUnflatten` state that the two reshapes are inverse |
| Grids.Unravel | demo/hifu/transducer_nonlinear.py:97 | every flat position below L M N is the column-major index of some voxel in range |
| Grids.UnravelFlatIndex | demo/hifu/transducer_nonlinear.py:97 | unravelling the column-major index of a voxel gives the voxel back |
| Grids.FlatIndexInjective | demo/hifu/transducer_nonlinear.py:176 | distinct voxels have distinct column-major positions |
| Grids.FlattenAt | demo/hifu/transducer_nonlinear.py:176 | `reshape(L*M*N, order='F')` puts voxel (i, j, k) at position i + L j + L M k |
| Grids.UnflattenFlatten | demo/hifu/transducer_nonlinear.py:176-188 | flattening and then reshaping back restores the grid |
| Grids.FlattenUnflatten | demo/hifu/transducer_nonlinear.py:188 | reshaping a vector into the grid and flattening again restores the vector |
| Grids.CentreIndex | demo/hifu/transducer_nonlinear.py:140-141 | floor(M/2) is a valid index when M ≥ 1, and it is the floor of M/2 |
| Scattering.ContrastFields | demo/acoustics/sphere_density_contrast.py:68-79 | it fails exactly when rho1 = 0. Otherwise: `Mr` is refInd² - 1 on the mask and 0 off it; `Dr` is rho0/rho1 - 1 on and 0 off; `rho_ratio` is rho0/rho1 on and 1 off; `RHO` is rho1 on and rho0 off |
| Scattering.NoDensityJump | demo/acoustics/sphere_density_contrast.py:71-72 | with rho0 = rho1, `Dr` is identically 0 |
| Scattering.ContrastConsistent | demo/acoustics/sphere_density_contrast.py:71-79 | at every voxel `Dr` = `rho_ratio` - 1 and `RHO` · `rho_ratio` = rho0 |
| Scattering.DensityNonzero | demo/acoustics/sphere_density_contrast.py:77-79 | with rho0, rho1 ≠ 0, `RHO` has no zero entry |
| Scattering.ScaledPermittivity | demo/acoustics/sphere_density_contrast.py:143 | `Mr/RHO` is finite exactly when `RHO` has no zero entry; then `RHO` times it gives back `Mr` |
| Scattering.ScaledPermittivityOutside | demo/acoustics/sphere_density_contrast.py:142-143 | with nonzero densities, `Mr/RHO` is defined and is 0 off the mask |
| Scattering.RightHandSide | demo/acoustics/sphere_density_contrast.py:99-101 | `xIn` equals `Uinc` on the mask and 0 off it |
| Scattering.RightHandSideVector | demo/acoustics/sphere_density_contrast.py:99-102 | the flattened `xIn` has length L M N, holds the masked `Uinc` at i + L j + L M k, and reshapes back to `xIn` |
| Scattering.Reconstruct | demo/acoustics/sphere_density_contrast.py:135-148 | it fails exactly on a solution of the wrong length. Otherwise `J` flattens back to the solution and U(i, j, k) = Uinc(i, j, k) + the operator's entry i + L j + L M k |
| Scattering.ScatteredFieldRoundTrip | demo/acoustics/sphere_density_contrast.py:142-148 | U - Uinc, flattened in column-major order, is exactly the operator's output vector |

## Left out

- The numerical engine is left as parameters, because its source is not part of this model. This covers:
  - kernel assembly (`volume_potential`, `grad_potential`);
  - circulant embedding;
  - every `mvp_*` product.
  The volume potential of the cascade is a `VolumeOp` parameter and the post-processing potential a `PotentialOp` parameter. The model assumes only that they preserve vector length. The mask `idx` and the unit `Mr` passed to `mvp_volume_potential` are folded into that parameter.
- GMRES, the residual callback, `LinearOperator`, the `findiff` gradient `Dr_grad`, the Mie solution, the error norm, plotting, timing and printing are left out: they are solver, validation or presentation code. The solver's output `sol` is an input to `Scattering.Reconstruct`.
- `Vtemp` (demo/acoustics/sphere_density_contrast.py:144) is left out: it is computed but not used by `U` (line 148). The commented-out alternatives on lines 145-147 are left out too.
- Floating-point rounding, NaN propagation and the numeric evaluation of sin, cos, arcsin, sqrt and exp are left out. The functions are abstract (`Maths.Lib`), and the 1e-3 and 5e-4 tolerances are exact real thresholds.
- Parallel evaluation (`numba` `prange`) is left out: the sum is modelled sequentially, point by point.
- Mesh generation (`generatedomain`, `shape`) and `PlaneWave` are not part of this model. The grid of points and `Uinc` are inputs.
- Bowl.PlanTiling: requires `n_elements >= 1`. With zero elements numpy divides by zero silently and the resulting infinities are not modelled.
- Bowl.PlanTiling: a band count that rounds to zero or below is not an error. Line 22 then divides by zero (M_theta = 0) or by a negative count (M_theta < 0, which happens when theta2 < theta1 while the tile area stays positive); numpy raises nothing in either case. `range(M_theta)` is empty, so the band loop does not run and the tiling is empty. The model follows the code here rather than assuming M_theta ≥ 1.
- `np.int` (lines 21 and 29) is taken to be Python's `int`, as in the numpy versions the code was written for. Later numpy releases removed it.
- Harmonics.Wavenumber: requires c ≠ 0. Line 76 raises ZeroDivisionError for c = 0, and both callers (`Harmonics.IncidentField`, `Harmonics.Cascade`) return `Failure(ZeroDivision)` before calling it.
- The wavelength `lam = c / f1` (line 75) only sizes the mesh, which is not part of this model, so f1 = 0 is not an error here.
- Harmonics.Medium: the attenuation exponent `eta` is a natural number (the demo uses 2); real exponents are not modelled.
- Harmonics.RunCascade: the stack size (line 116) and the loop bound (line 147) are both `n_harm`; the model assumes they are equal, as they are in the demo.
- Scattering.ContrastFields: `Dr`, `rho_ratio` and `RHO` are modelled as real grids. numpy stores them as complex arrays with zero imaginary part.
- Harmonics.SourceTermZero: for the fourth and fifth harmonics only the "if" direction is stated. A sum of products can cancel, so "zero only where every term vanishes" is false in general.

## Findings

| source | as written | input that shows it | evidently intended | confidence | as-written member | corrected member |
|---|---|---|---|---|---|---|
| demo/hifu/transducer_nonlinear.py:161-176 | the forcing is chosen by an if/elif chain that covers `i_harm` 1 to 4 only. For `i_harm` ≥ 5 no branch runs, and `xIn` silently keeps the forcing of the previous iteration | `n_harm = 6` (lines 116 and 147): `P[5]` is computed from the forcing built for `P[4]`, so both come from one source term | each harmonic uses its own forcing, or harmonics beyond the table are refused | not executed; the behaviour follows from Python's scoping of `xIn` across loop iterations | Harmonics.AsWrittenStaleForcing | Harmonics.Cascade |

=== FILE: bowl.dfy ===
/** The bowl (spherical-cap) transducer surface: its equal-area tiling into point sources,
    following Deserno's equidistribution scheme, and its re-orientation onto the x or z axis
    (vines/fields/transducers.py, `bowl_transducer`, lines 14-47). */
module Bowl {
  import opened Maths
  import opened Outcome

  datatype Point = Point(x: real, y: real, z: real)

  const Origin: Point := Point(0.0, 0.0, 0.0)

  /** The squared Euclidean distance. */
  function SqDist(p: Point, q: Point): real {
    (p.x - q.x) * (p.x - q.x) + (p.y - q.y) * (p.y - q.y) + (p.z - q.z) * (p.z - q.z)
  }

  /** The band areas are computed on the unit sphere (`r = 1.0`). */
  const UnitRadius: real := 1.0

  /** The band layout of the tiling: the polar angles of the inner and outer rims, the area
      `a` given to each source, the number of latitude bands `M_theta` and the azimuthal
      spacing `d_phi` (meaningful only when there is at least one band). */
  datatype Layout = Layout(theta1: real, theta2: real, area: real, bands: int, dPhi: real)

  /** What a successful plan guarantees: a positive source area and, when there are bands,
      a nonempty angular range and a positive azimuthal spacing. */
  predicate WellFormed(lay: Layout) {
    && lay.area > 0.0
    && (lay.bands >= 1 ==> lay.theta1 < lay.theta2 && lay.dPhi > 0.0)
  }

  /** Lines 14-23: the polar angles, the per-source area, the band count and spacings.
      Division of the Python floats by a zero focal length raises; an arcsine argument
      outside [-1, 1] gives NaN and a non-positive area gives NaN or infinity, and either
      makes the integer conversion of the band count raise. A band count that rounds to
      zero or below is not an error: the band loop simply does not run. */
  function PlanTiling(lib: Lib, focalLength: real, radius: real, nElements: int, apertureRadius: real): (r: Result<Layout>)
    requires Lawful(lib)
    requires nElements >= 1
    ensures r.Failure? ==> r.error == ZeroDivision || r.error == NonFiniteInteger
    ensures r == Failure(ZeroDivision) <==> focalLength == 0.0
    ensures r == Failure(NonFiniteInteger) <==>
      && focalLength != 0.0
      && (|| !(-1.0 <= apertureRadius / focalLength <= 1.0 && -1.0 <= radius / focalLength <= 1.0)
          || TileArea(lib, lib.arcsin(apertureRadius / focalLength), lib.arcsin(radius / focalLength), nElements) <= 0.0)
    ensures r.Success? ==> WellFormed(r.value)
    ensures r.Success? ==>
      && focalLength != 0.0
      && radius * radius <= focalLength * focalLength
      && r.value.theta1 == lib.arcsin(apertureRadius / focalLength)
      && r.value.theta2 == lib.arcsin(radius / focalLength)
      && r.value.area == TileArea(lib, r.value.theta1, r.value.theta2, nElements)
    ensures r.Success? ==>
      r.value.bands == RoundHalfEven((r.value.theta2 - r.value.theta1) / lib.sqrt(r.value.area))
    ensures r.Success? && r.value.bands >= 1 ==>
      r.value.dPhi == r.value.area / ((r.value.theta2 - r.value.theta1) / r.value.bands as real)
  {
    if focalLength == 0.0 then Failure(ZeroDivision)
    else
      var s1 := apertureRadius / focalLength;
      var s2 := radius / focalLength;
      if !(-1.0 <= s1 <= 1.0 && -1.0 <= s2 <= 1.0) then Failure(NonFiniteInteger)
      else
        var theta1 := lib.arcsin(s1);
        var theta2 := lib.arcsin(s2);
        var a := TileArea(lib, theta1, theta2, nElements);
        if a <= 0.0 then Failure(NonFiniteInteger)
        else
          RatioBoundSquare(radius, focalLength);
          SqrtPositive(lib, a);
          var d := lib.sqrt(a);
          var mTheta := RoundHalfEven((theta2 - theta1) / d);
          if mTheta <= 0 then Success(Layout(theta1, theta2, a, mTheta, 0.0))
          else
            RoundAtLeastOne((theta2 - theta1) / d);
            QuotientPositive(theta2 - theta1, d);
            var dTheta := (theta2 - theta1) / mTheta as real;
            DivPositive(theta2 - theta1, mTheta as real);
            DivPositive(a, dTheta);
            Success(Layout(theta1, theta2, a, mTheta, a / dTheta))
  }

  /** Line 19: the area given to each source, the unit-sphere cap area between the polar
      angles theta1 and theta2, 2 pi r^2 (cos theta1 - cos theta2), shared among the sources. */
  function TileArea(lib: Lib, theta1: real, theta2: real, nElements: int): real
    requires nElements >= 1
  {
    2.0 * lib.pi * UnitRadius * UnitRadius * (lib.cos(theta1) - lib.cos(theta2)) / nElements as real
  }

  /** Line 28: the polar angle of band m, at the middle of its slice of [theta1, theta2]. */
  function BandAngle(lay: Layout, m: nat): real
    requires lay.bands >= 1
  {
    (lay.theta2 - lay.theta1) * (m as real + 0.5) / lay.bands as real + lay.theta1
  }

  /** Every band angle lies strictly inside the cap's angular range. */
  lemma BandAngleWithin(lay: Layout, m: nat)
    requires WellFormed(lay) && lay.bands >= 1
    requires m < lay.bands
    ensures lay.theta1 < BandAngle(lay, m) < lay.theta2
  {
    var w := lay.theta2 - lay.theta1;
    var b := lay.bands as real;
    var h := m as real + 0.5;
    assert 0.0 < h < b;
    MulPositive(w, h);
    MulStrict(h, b, w);
    var t := w * h / b;
    DivPositive(w * h, b);
    DivStrictMonotone(w * h, w * b, b);
    assert w * b / b == w;
    assert 0.0 < t < w;
  }

  /** Line 29: the number of sources in band m, `round(2 pi sin(theta) / d_phi)`. */
  function AzimuthCount(lib: Lib, lay: Layout, m: nat): int
    requires WellFormed(lay) && lay.bands >= 1
  {
    RoundHalfEven(2.0 * lib.pi * lib.sin(BandAngle(lay, m)) / lay.dPhi)
  }

  /** Line 31: the azimuth of source n of a band holding `count` sources. */
  function Azimuth(lib: Lib, count: int, n: nat): (phi: real)
    requires count >= 1
    ensures phi * count as real == 2.0 * lib.pi * n as real
    ensures n == 0 ==> phi == 0.0
  {
    2.0 * lib.pi * n as real / count as real
  }

  /** The azimuths of one band lie in [0, 2 pi) and are pairwise distinct. */
  lemma AzimuthsDistinct(lib: Lib, count: int, n1: nat, n2: nat)
    requires Lawful(lib) && count >= 1
    requires n1 < count && n2 < count
    ensures 0.0 <= Azimuth(lib, count, n1) < 2.0 * lib.pi
    ensures n1 != n2 ==> Azimuth(lib, count, n1) != Azimuth(lib, count, n2)
  {
    var tau := 2.0 * lib.pi;
    var c := count as real;
    MulNonnegative(tau, n1 as real);
    DivNonnegative(tau * n1 as real, c);
    MulStrict(n1 as real, c, tau);
    DivStrictMonotone(tau * n1 as real, tau * c, c);
    assert tau * c / c == tau;
    if n1 != n2 {
      DivInjective(tau * n1 as real, tau * n2 as real, c);
      MulCancel(tau, n1 as real, n2 as real);
    }
  }

  /** Lines 32-34: the point at polar angle theta and azimuth phi on the sphere of radius f. */
  function OnSphere(lib: Lib, f: real, theta: real, phi: real): Point {
    Point(f * lib.sin(theta) * lib.cos(phi), f * lib.sin(theta) * lib.sin(phi), f * lib.cos(theta))
  }

  /** Every such point lies on the sphere of radius f about the origin. */
  lemma OnSphereRadius(lib: Lib, f: real, theta: real, phi: real)
    requires Lawful(lib)
    ensures SqDist(OnSphere(lib, f, theta, phi), Origin) == f * f
  {
    var s, c := lib.sin(theta), lib.cos(theta);
    var u, v := lib.cos(phi), lib.sin(phi);
    SphereIdentity(f, s, c, u, v);
  }

  /** The sources of band m, in the order the inner loop appends them. A band whose count
      rounds to zero or below holds none. */
  function Band(lib: Lib, f: real, lay: Layout, m: nat): (b: seq<Point>)
    requires WellFormed(lay) && lay.bands >= 1
  {
    var c := AzimuthCount(lib, lay, m);
    seq(if c > 0 then c else 0, n requires 0 <= n < c => OnSphere(lib, f, BandAngle(lay, m), Azimuth(lib, c, n)))
  }

  /** The sources of bands 0 .. upto - 1, in loop order. */
  function Bands(lib: Lib, f: real, lay: Layout, upto: nat): seq<Point>
    requires WellFormed(lay)
    requires upto == 0 || upto <= lay.bands
  {
    if upto == 0 then [] else Bands(lib, f, lay, upto - 1) + Band(lib, f, lay, upto - 1)
  }

  /** The number of sources the tiling produces: the sum over bands m < M_theta of
      max(M_phi(m), 0). */
  function SourceCount(lib: Lib, lay: Layout, upto: nat): nat
    requires WellFormed(lay)
    requires upto == 0 || upto <= lay.bands
  {
    if upto == 0 then 0
    else
      var c := AzimuthCount(lib, lay, upto - 1);
      SourceCount(lib, lay, upto - 1) + (if c > 0 then c else 0)
  }

  /** The number of bands the loop at line 27 visits. */
  function BandsVisited(lay: Layout): nat {
    if lay.bands > 0 then lay.bands else 0
  }

  /** The whole tiling, before re-orientation. */
  function Tiling(lib: Lib, f: real, lay: Layout): (t: seq<Point>)
    requires WellFormed(lay)
    ensures |t| == SourceCount(lib, lay, BandsVisited(lay))
  {
    TilingCount(lib, f, lay, BandsVisited(lay));
    Bands(lib, f, lay, BandsVisited(lay))
  }

  /** The tiling holds exactly the counted number of sources. */
  lemma {:induction false} TilingCount(lib: Lib, f: real, lay: Layout, upto: nat)
    requires WellFormed(lay)
    requires upto == 0 || upto <= lay.bands
    ensures |Bands(lib, f, lay, upto)| == SourceCount(lib, lay, upto)
  {
    if upto > 0 {
      TilingCount(lib, f, lay, upto - 1);
    }
  }

  /** Every tiled source lies on the sphere of radius f about the origin. */
  lemma {:induction false} TilingOnSphere(lib: Lib, f: real, lay: Layout, upto: nat)
    requires Lawful(lib) && WellFormed(lay)
    requires upto == 0 || upto <= lay.bands
    ensures forall p :: p in Bands(lib, f, lay, upto) ==> SqDist(p, Origin) == f * f
  {
    if upto > 0 {
      TilingOnSphere(lib, f, lay, upto - 1);
      var c := AzimuthCount(lib, lay, upto - 1);
      var theta := BandAngle(lay, upto - 1);
      var band := Band(lib, f, lay, upto - 1);
      forall n | 0 <= n < |band|
        ensures SqDist(band[n], Origin) == f * f
      {
        OnSphereRadius(lib, f, theta, Azimuth(lib, c, n));
      }
    }
  }

  /** The tiling loop of lines 24-35, with the counter `n_count`. */
  method TileBowl(lib: Lib, f: real, lay: Layout) returns (sources: seq<Point>, nCount: nat)
    requires WellFormed(lay)
    ensures sources == Tiling(lib, f, lay)
    ensures nCount == |sources| == SourceCount(lib, lay, BandsVisited(lay))
  {
    sources := [];
    nCount := 0;
    var m: nat := 0;
    while m < lay.bands
      invariant m == 0 || m <= lay.bands
      invariant sources == Bands(lib, f, lay, m)
      invariant nCount == |sources|
    {
      var theta := BandAngle(lay, m);
      var mPhi := AzimuthCount(lib, lay, m);
      ghost var before := sources;
      var n: nat := 0;
      while n < mPhi
        invariant n <= mPhi || n == 0
        invariant sources == before + Band(lib, f, lay, m)[..n]
        invariant nCount == |sources|
      {
        sources := sources + [OnSphere(lib, f, theta, Azimuth(lib, mPhi, n))];
        nCount := nCount + 1;
        n := n + 1;
      }
      assert Band(lib, f, lay, m)[..n] == Band(lib, f, lay, m);
      m := m + 1;
    }
    TilingCount(lib, f, lay, BandsVisited(lay));
  }

  /** The two orientations `bowl_transducer` supports. */
  datatype Axis = AlongZ | AlongX

  /** Python's `a in b` on strings: `a` occurs as a contiguous substring of `b`. */
  predicate IsSubstring(a: string, b: string) {
    exists i | 0 <= i <= |b| - |a| :: OccursAt(a, b, i)
  }

  /** `a` occurs in `b` starting at position i. */
  predicate OccursAt(a: string, b: string, i: int) {
    0 <= i && i + |a| <= |b| && b[i..i + |a|] == a
  }

  /** Lines 37 and 41: `axis in 'z'` is checked before `axis in 'x'`. */
  function ParseAxis(axis: string): Option<Axis> {
    if IsSubstring(axis, "z") then Some(AlongZ)
    else if IsSubstring(axis, "x") then Some(AlongX)
    else None
  }

  /** Because the tests are substring tests, the empty string selects the z axis as well;
      "x" selects the x axis, and every other string neither. */
  lemma ParseAxisCases(axis: string)
    ensures ParseAxis(axis) == Some(AlongZ) <==> axis == "" || axis == "z"
    ensures ParseAxis(axis) == Some(AlongX) <==> axis == "x"
    ensures ParseAxis(axis) == None <==> axis != "" && axis != "z" && axis != "x"
  {
    SingleCharSubstrings(axis, 'z');
    SingleCharSubstrings(axis, 'x');
  }

  /** The substrings of a one-character string are the empty string and the string itself. */
  lemma SingleCharSubstrings(a: string, c: char)
    ensures IsSubstring(a, [c]) <==> a == [] || a == [c]
  {
    if a == [] {
      assert OccursAt(a, [c], 0);
    } else if a == [c] {
      assert OccursAt(a, [c], 0);
    }
  }

  /** The point the bowl is centred on after re-orientation: (focus[0], 0, 0) for the x
      axis, (0, 0, focus[2]) for the z axis. */
  function AxisCentre(axis: Axis, focus: Point): Point {
    match axis
    case AlongZ => Point(0.0, 0.0, focus.z)
    case AlongX => Point(focus.x, 0.0, 0.0)
  }

  /** Lines 37-47: along z the bowl is flipped, z -> focus[2] - z; along x the coordinates
      are permuted, (x, y, z) -> (focus[0] - z, -x, -y). Either way a point at distance d
      from the origin ends at distance d from the axis centre. */
  function Reorient(axis: Axis, focus: Point, p: Point): (r: Point)
    ensures SqDist(r, AxisCentre(axis, focus)) == SqDist(p, Origin)
  {
    match axis
    case AlongZ => Point(p.x, p.y, focus.z - p.z)
    case AlongX => Point(focus.x - p.z, -p.x, -p.y)
  }

  /** Re-orientation is an isometry: it preserves every pairwise distance. */
  lemma ReorientIsometry(axis: Axis, focus: Point, p: Point, q: Point)
    ensures SqDist(Reorient(axis, focus, p), Reorient(axis, focus, q)) == SqDist(p, q)
  {
    var a, b := Reorient(axis, focus, p), Reorient(axis, focus, q);
    match axis
    case AlongZ =>
      SquaresUpToSign(a.x - b.x, a.y - b.y, a.z - b.z, p.x - q.x, p.y - q.y, p.z - q.z);
    case AlongX =>
      SquaresUpToSign(a.x - b.x, a.y - b.y, a.z - b.z, p.z - q.z, p.x - q.x, p.y - q.y);
  }

  /** Re-orientation applied to every source. */
  function ReorientAll(axis: Axis, focus: Point, ps: seq<Point>): (rs: seq<Point>)
    ensures |rs| == |ps|
    ensures forall i :: 0 <= i < |ps| ==> SqDist(rs[i], AxisCentre(axis, focus)) == SqDist(ps[i], Origin)
  {
    seq(|ps|, i requires 0 <= i < |ps| => Reorient(axis, focus, ps[i]))
  }

  /** Re-orienting the whole source set keeps the number of sources and every pairwise
      distance between them. */
  lemma ReorientAllIsometry(axis: Axis, focus: Point, ps: seq<Point>)
    ensures |ReorientAll(axis, focus, ps)| == |ps|
    ensures forall i, j :: 0 <= i < |ps| && 0 <= j < |ps| ==>
      SqDist(ReorientAll(axis, focus, ps)[i], ReorientAll(axis, focus, ps)[j]) == SqDist(ps[i], ps[j])
  {
    var rs := ReorientAll(axis, focus, ps);
    forall i, j | 0 <= i < |ps| && 0 <= j < |ps|
      ensures SqDist(rs[i], rs[j]) == SqDist(ps[i], ps[j])
    {
      ReorientIsometry(axis, focus, ps[i], ps[j]);
    }
  }

  /** Sums of three squares agree when the terms agree up to sign. */
  lemma SquaresUpToSign(u1: real, u2: real, u3: real, v1: real, v2: real, v3: real)
    requires u1 == v1 || u1 == -v1
    requires u2 == v2 || u2 == -v2
    requires u3 == v3 || u3 == -v3
    ensures u1 * u1 + u2 * u2 + u3 * u3 == v1 * v1 + v2 * v2 + v3 * v3
  {
    SquareUpToSign(u1, v1);
    SquareUpToSign(u2, v2);
    SquareUpToSign(u3, v3);
  }

  lemma SquareUpToSign(u: real, v: real)
    requires u == v || u == -v
    ensures u * u == v * v
  {
  }

  lemma SphereIdentity(f: real, s: real, c: real, u: real, v: real)
    requires s * s + c * c == 1.0 && u * u + v * v == 1.0
    ensures (f * s * u - 0.0) * (f * s * u - 0.0) + (f * s * v - 0.0) * (f * s * v - 0.0)
            + (f * c - 0.0) * (f * c - 0.0) == f * f
  {
    calc {
      (f * s * u - 0.0) * (f * s * u - 0.0) + (f * s * v - 0.0) * (f * s * v - 0.0)
        + (f * c - 0.0) * (f * c - 0.0);
      (f * f) * ((s * s) * (u * u + v * v) + c * c);
      (f * f) * ((s * s) * 1.0 + c * c);
      (f * f) * (s * s + c * c);
      (f * f) * 1.0;
      f * f;
    }
  }

  lemma RatioBoundSquare(r: real, f: real)
    requires f != 0.0 && -1.0 <= r / f <= 1.0
    ensures r * r <= f * f
  {
    var q := r / f;
    assert r == q * f;
    SquareNonnegative(f);
    var qq := q * q;
    assert qq <= 1.0 by {
      if q >= 0.0 { SquareMonotone(q, 1.0); } else { SquareMonotone(-q, 1.0); assert (-q) * (-q) == qq; }
    }
    calc {
      r * r;
      == (q * f) * (q * f);
      == qq * (f * f);
      <= { MulLeqRight(qq, 1.0, f * f); } 1.0 * (f * f);
      == f * f;
    }
  }
}

=== FILE: calibration.dfy ===
/** Power calibration of the bowl transducer (vines/fields/transducers.py, `normalise_power`,
    lines 82-98): the field is sampled on a radial line across a disk in front of the bowl,
    the acoustic power through the disk is estimated with a 500-point rule, and the source
    amplitude `p0` that delivers the requested power is returned. */
module Calibration {
  import opened Maths
  import opened Outcome
  import opened Bowl
  import opened Transducer

  /** Line 85: the number of quadrature radii. */
  const QuadPoints: nat := 500

  /** Line 87: `np.linspace(0, R, 500)` includes both end points, so the step is R / 499. */
  function QuadratureStep(radius: real): real {
    radius / (QuadPoints - 1) as real
  }

  /** Radius i of the linspace, i steps from 0. */
  function QuadratureRadius(radius: real, i: nat): (r: real)
    requires i < QuadPoints
    ensures i == 0 ==> r == 0.0
    ensures i == QuadPoints - 1 ==> r == radius
  {
    QuadratureStep(radius) * i as real
  }

  /** Consecutive radii are one step apart: the radii are equally spaced from 0 to R. */
  lemma QuadratureEquallySpaced(radius: real, i: nat)
    requires 0 < i < QuadPoints
    ensures QuadratureRadius(radius, i) - QuadratureRadius(radius, i - 1) == QuadratureStep(radius)
  {
    assert (i - 1) as real == i as real - 1.0;
    StepMultiple(QuadratureStep(radius), i as real);
  }

  lemma StepMultiple(h: real, x: real)
    ensures h * x - h * (x - 1.0) == h
  {
  }

  /** Line 89: the x coordinate of the sampling disk. */
  function DiskPlane(lib: Lib, focalLength: real, radius: real): (x: real)
    ensures Lawful(lib) && radius * radius <= focalLength * focalLength ==> x <= focalLength
  {
    focalLength - 0.98 * lib.sqrt(focalLength * focalLength - radius * radius)
  }

  /** For a bowl narrower than its focal length, the disk lies strictly between the plane of
      the bowl's rim, f - sqrt(f^2 - R^2), and the focal plane f. */
  lemma DiskPlaneBetween(lib: Lib, focalLength: real, radius: real)
    requires Lawful(lib)
    requires 0.0 < radius < focalLength
    ensures focalLength - lib.sqrt(focalLength * focalLength - radius * radius)
            < DiskPlane(lib, focalLength, radius) < focalLength
  {
    SquareStrictlyMonotone(radius, focalLength);
    SqrtPositive(lib, focalLength * focalLength - radius * radius);
  }

  /** Lines 90-92: the sample points (x_disk, 0, r_i), i < 500. */
  function CalibrationPoints(lib: Lib, focalLength: real, radius: real): (ps: seq<Point>)
    ensures |ps| == QuadPoints
    ensures forall i :: 0 <= i < QuadPoints ==> ps[i].x == DiskPlane(lib, focalLength, radius) && ps[i].y == 0.0
    ensures forall i :: 0 <= i < QuadPoints ==> ps[i].z == QuadratureRadius(radius, i)
    ensures ps[0].z == 0.0 && ps[QuadPoints - 1].z == radius
  {
    seq(QuadPoints, i requires 0 <= i < QuadPoints =>
      Point(DiskPlane(lib, focalLength, radius), 0.0, QuadratureRadius(radius, i)))
  }

  /** The sum of a sequence of reals, accumulated from the front. */
  function RealSum(s: seq<real>): real {
    if s == [] then 0.0 else RealSum(s[..|s| - 1]) + s[|s| - 1]
  }

  /** The samples |p_i|^2 r_i of the power integrand. */
  function Integrand(p: seq<Complex>, radius: real): (w: seq<real>)
    requires |p| == QuadPoints
    ensures |w| == QuadPoints
  {
    seq(QuadPoints, i requires 0 <= i < QuadPoints => AbsSq(p[i]) * QuadratureRadius(radius, i))
  }

  /** Line 96: `2 pi sum(|p|^2 r) R / 500`. */
  function PowerIntegral(lib: Lib, p: seq<Complex>, radius: real): real
    requires |p| == QuadPoints
  {
    DiskRule(lib.pi, RealSum(Integrand(p, radius)), radius)
  }

  /** The estimated power is never negative: every sample |p_i|^2 r_i is nonnegative on a
      disk of nonnegative radius. */
  lemma PowerIntegralNonnegative(lib: Lib, p: seq<Complex>, radius: real)
    requires Lawful(lib) && |p| == QuadPoints && radius >= 0.0
    ensures PowerIntegral(lib, p, radius) >= 0.0
  {
    IntegrandNonnegative(p, radius);
    RealSumNonnegative(Integrand(p, radius));
    ScaledNonnegative(lib.pi, RealSum(Integrand(p, radius)), radius);
  }

  /** The rule of line 96 applied to a sum s of the integrand samples: 2 pi s R / 500. */
  function DiskRule(pi: real, s: real, radius: real): real {
    2.0 * pi * s * radius / 500.0
  }

  /** For a nonnegative disk radius every sample |p_i|^2 r_i is nonnegative. */
  lemma IntegrandNonnegative(p: seq<Complex>, radius: real)
    requires |p| == QuadPoints
    ensures radius >= 0.0 ==> forall i :: 0 <= i < QuadPoints ==> Integrand(p, radius)[i] >= 0.0
  {
    if radius >= 0.0 {
      var w := Integrand(p, radius);
      forall i | 0 <= i < QuadPoints
        ensures w[i] >= 0.0
      {
        SquareNonnegative(p[i].re);
        SquareNonnegative(p[i].im);
        StepNonnegative(radius, i as real);
        MulNonnegative(AbsSq(p[i]), QuadratureRadius(radius, i));
      }
    }
  }

  /** A sum of nonnegative terms is nonnegative. */
  lemma {:induction false} RealSumNonnegative(s: seq<real>)
    ensures (forall i :: 0 <= i < |s| ==> s[i] >= 0.0) ==> RealSum(s) >= 0.0
  {
    if s != [] && forall i :: 0 <= i < |s| ==> s[i] >= 0.0 {
      var init := s[..|s| - 1];
      assert forall i :: 0 <= i < |init| ==> init[i] == s[i];
      RealSumNonnegative(init);
    }
  }

  /** Line 97: p0 = sqrt(2 rho c0 P / integral). The numpy division by a zero integral and
      the square root of a negative ratio do not raise; they give an infinite or NaN
      amplitude, reported here as `NonFiniteAmplitude`. */
  function CalibrationPressure(lib: Lib, power: real, rho: real, c0: real, integral: real): (r: Result<real>)
    requires Lawful(lib)
    ensures r.Failure? <==> integral == 0.0 || 2.0 * rho * c0 * power / integral < 0.0
    ensures r.Failure? ==> r.error == NonFiniteAmplitude
    ensures r.Success? ==> r.value >= 0.0 && r.value * r.value * integral == 2.0 * rho * c0 * power
  {
    if integral == 0.0 then Failure(NonFiniteAmplitude)
    else
      var ratio := 2.0 * rho * c0 * power / integral;
      if ratio < 0.0 then Failure(NonFiniteAmplitude)
      else
        var p0 := lib.sqrt(ratio);
        assert p0 * p0 == ratio;
        calc {
          p0 * p0 * integral;
          == ratio * integral;
          == 2.0 * rho * c0 * power;
        }
        Success(p0)
  }

  /** Lines 82-98: `normalise_power`. The bowl is evaluated along the x axis with the real
      part of the wavenumber only; its errors pass through unchanged. */
  function NormalisePower(lib: Lib, power: real, rho: real, c0: real, radius: real, k1: Complex,
                          focalLength: real, focus: Point, nElements: int, apertureRadius: real): (r: Result<real>)
    requires Lawful(lib) && nElements >= 1
    ensures PlanTiling(lib, focalLength, radius, nElements, apertureRadius).Failure? ==>
      r == Failure(PlanTiling(lib, focalLength, radius, nElements, apertureRadius).error)
    ensures PlanTiling(lib, focalLength, radius, nElements, apertureRadius).Success? ==>
      var field := BowlTransducer(lib, Complex(k1.re, 0.0), focalLength, focus, radius, nElements,
                                  apertureRadius, CalibrationPoints(lib, focalLength, radius), "x");
      && field.Success?
      && var integral := PowerIntegral(lib, field.value.pressure, radius);
         && (r.Failure? <==> integral == 0.0 || 2.0 * rho * c0 * power / integral < 0.0)
         && (r.Failure? ==> r.error == NonFiniteAmplitude)
    ensures r.Success? ==> r.value >= 0.0
    ensures r.Success? ==>
      var field := BowlTransducer(lib, Complex(k1.re, 0.0), focalLength, focus, radius, nElements,
                                  apertureRadius, CalibrationPoints(lib, focalLength, radius), "x");
      && field.Success?
      && PowerIntegral(lib, ScaleAll(r.value, field.value.pressure), radius) == 2.0 * rho * c0 * power
  {
    var points := CalibrationPoints(lib, focalLength, radius);
    match BowlTransducer(lib, Complex(k1.re, 0.0), focalLength, focus, radius, nElements, apertureRadius, points, "x")
    case Failure(e) =>
      ParseAxisCases("x");
      Failure(e)
    case Success(field) =>
      var r := CalibrationPressure(lib, power, rho, c0, PowerIntegral(lib, field.pressure, radius));
      CalibratedPower(lib, field.pressure, radius, power, rho, c0);
      r
  }

  /** The power round trip: the amplitude returned by `CalibrationPressure`, applied to the
      samples it was computed from, makes the quadrature deliver exactly the requested power. */
  lemma CalibratedPower(lib: Lib, p: seq<Complex>, radius: real, power: real, rho: real, c0: real)
    requires Lawful(lib) && |p| == QuadPoints
    ensures var r := CalibrationPressure(lib, power, rho, c0, PowerIntegral(lib, p, radius));
      r.Success? ==> PowerIntegral(lib, ScaleAll(r.value, p), radius) == 2.0 * rho * c0 * power
  {
    var integral := PowerIntegral(lib, p, radius);
    var r := CalibrationPressure(lib, power, rho, c0, integral);
    if r.Success? {
      PowerRoundTrip(lib, p, radius, r.value);
    }
  }

  /** Every sample multiplied by the same real amplitude. */
  function ScaleAll(s: real, p: seq<Complex>): (q: seq<Complex>)
    ensures |q| == |p|
    ensures forall i :: 0 <= i < |p| ==> q[i] == Scale(s, p[i])
  {
    seq(|p|, i requires 0 <= i < |p| => Scale(s, p[i]))
  }

  /** The power round trip: scaling every sample by p0 multiplies the quadrature by p0^2. */
  lemma PowerRoundTrip(lib: Lib, p: seq<Complex>, radius: real, p0: real)
    requires |p| == QuadPoints
    ensures PowerIntegral(lib, ScaleAll(p0, p), radius) == p0 * p0 * PowerIntegral(lib, p, radius)
  {
    ScaledDisk(lib, p, radius, p0);
  }

  /** The round trip stated on the sums the disk rule is applied to. */
  lemma ScaledDisk(lib: Lib, p: seq<Complex>, radius: real, p0: real)
    requires |p| == QuadPoints
    ensures DiskRule(lib.pi, RealSum(Integrand(ScaleAll(p0, p), radius)), radius)
         == p0 * p0 * DiskRule(lib.pi, RealSum(Integrand(p, radius)), radius)
  {
    SampleSumScale(p, radius, p0);
    DiskRuleScale(lib.pi, p0, RealSum(Integrand(p, radius)), RealSum(Integrand(ScaleAll(p0, p), radius)), radius);
  }

  /** Scaling every sample by p0 scales the sum of the integrand samples by p0^2. */
  lemma SampleSumScale(p: seq<Complex>, radius: real, p0: real)
    requires |p| == QuadPoints
    ensures RealSum(Integrand(ScaleAll(p0, p), radius)) == p0 * p0 * RealSum(Integrand(p, radius))
  {
    IntegrandScale(p, radius, p0);
    RealSumScale(Integrand(p, radius), Integrand(ScaleAll(p0, p), radius), p0 * p0);
  }

  /** Scaling every sample by p0 scales every integrand sample by p0^2. */
  lemma IntegrandScale(p: seq<Complex>, radius: real, p0: real)
    requires |p| == QuadPoints
    ensures forall i :: 0 <= i < QuadPoints ==>
      Integrand(ScaleAll(p0, p), radius)[i] == p0 * p0 * Integrand(p, radius)[i]
  {
    var w := Integrand(p, radius);
    var w' := Integrand(ScaleAll(p0, p), radius);
    forall i | 0 <= i < QuadPoints
      ensures w'[i] == p0 * p0 * w[i]
    {
      AbsSqScale(p0, p[i]);
      Assoc(p0 * p0, AbsSq(p[i]), QuadratureRadius(radius, i));
    }
  }

  /** Summation is linear: scaling every term scales the sum. */
  lemma {:induction false} RealSumScale(a: seq<real>, b: seq<real>, c: real)
    requires |a| == |b|
    requires forall i :: 0 <= i < |a| ==> b[i] == c * a[i]
    ensures RealSum(b) == c * RealSum(a)
  {
    if a != [] {
      RealSumScale(a[..|a| - 1], b[..|b| - 1], c);
      Distribute(c, RealSum(a[..|a| - 1]), a[|a| - 1]);
    }
  }

  /** The sum a*0 + a*1 + ... + a*(n-1) = a n (n-1) / 2. */
  lemma {:induction false} ArithmeticSum(w: seq<real>, a: real)
    requires forall i :: 0 <= i < |w| ==> w[i] == a * i as real
    ensures RealSum(w) == a * (|w| as real) * (|w| as real - 1.0) / 2.0
  {
    if w != [] {
      var n := |w| as real;
      ArithmeticSum(w[..|w| - 1], a);
      assert (|w| - 1) as real == n - 1.0;
      ArithmeticStep(a, n);
    }
  }

  /** The rule is exact for a field of uniform magnitude c across the disk: the estimate is
      the exact integral of c over a disk of radius R, pi c R^2. */
  lemma UniformQuadrature(lib: Lib, p: seq<Complex>, radius: real, c: real)
    requires |p| == QuadPoints
    requires forall i :: 0 <= i < QuadPoints ==> AbsSq(p[i]) == c
    ensures PowerIntegral(lib, p, radius) == lib.pi * c * radius * radius
  {
    var w := Integrand(p, radius);
    var h := QuadratureStep(radius);
    var a := c * h;
    forall i | 0 <= i < QuadPoints
      ensures w[i] == a * i as real
    {
      Assoc(c, h, i as real);
    }
    ArithmeticSum(w, a);
    UniformClosedForm(lib.pi, c, radius, h, RealSum(w));
  }

  lemma StepNonnegative(radius: real, x: real)
    requires radius >= 0.0 && x >= 0.0
    ensures radius / 499.0 * x >= 0.0
  {
  }

  lemma ScaledNonnegative(pi: real, s: real, r: real)
    ensures pi >= 0.0 && s >= 0.0 && r >= 0.0 ==> DiskRule(pi, s, r) >= 0.0
  {
    if pi >= 0.0 && s >= 0.0 && r >= 0.0 {
      MulNonnegative(2.0 * pi, s);
      MulNonnegative(2.0 * pi * s, r);
    }
  }

  /** The disk rule is linear in the sum of the samples. */
  lemma DiskRuleScale(pi: real, t: real, s: real, s': real, radius: real)
    requires s' == t * t * s
    ensures DiskRule(pi, s', radius) == t * t * DiskRule(pi, s, radius)
  {
  }

  lemma ArithmeticStep(a: real, n: real)
    ensures a * (n - 1.0) * (n - 1.0 - 1.0) / 2.0 + a * (n - 1.0) == a * n * (n - 1.0) / 2.0
  {
  }

  lemma UniformClosedForm(pi: real, c: real, r: real, h: real, s: real)
    requires h == r / 499.0
    requires s == c * h * 500.0 * (500.0 - 1.0) / 2.0
    ensures DiskRule(pi, s, r) == pi * c * r * r
  {
    assert s == c * r * 250.0;
  }
}

=== FILE: grids.dfy ===
/** Three-dimensional voxel arrays and the single flattening convention used everywhere:
    numpy's column-major (`order='F'`) reshape, in which voxel (i, j, k) of an L x M x N grid
    sits at flat position i + L j + L M k. */
module Grids {

  /** A voxel array indexed g[i][j][k]. */
  type Grid<T> = seq<seq<seq<T>>>

  /** `g` has shape (l, m, n). */
  predicate IsGrid<T>(g: Grid<T>, l: nat, m: nat, n: nat) {
    && |g| == l
    && (forall i :: 0 <= i < l ==> |g[i]| == m)
    && (forall i, j :: 0 <= i < l && 0 <= j < m ==> |g[i][j]| == n)
  }

  /** A voxel position. */
  datatype Voxel = Voxel(i: nat, j: nat, k: nat)

  /** Column-major position of voxel (i, j, k): the first index varies fastest. */
  function FlatIndex(i: nat, j: nat, k: nat, l: nat, m: nat, n: nat): (p: nat)
    requires i < l && j < m && k < n
    ensures p < l * m * n
  {
    assert i + l * j < l * m by {
      MulLeq(l, j, m - 1);
      assert l * (m - 1) == l * m - l;
    }
    MulLeq(l * m, k, n - 1);
    assert l * m * (n - 1) == l * m * n - l * m;
    i + l * j + l * m * k
  }

  /** The voxel stored at flat position p: the inverse of `FlatIndex`. */
  function Unravel(p: nat, l: nat, m: nat, n: nat): (v: Voxel)
    requires p < l * m * n
    ensures v.i < l && v.j < m && v.k < n
    ensures FlatIndex(v.i, v.j, v.k, l, m, n) == p
  {
    PositiveFactors(l, m, n);
    UnravelDigits(p, l, m, n);
    Digits(p, l, m)
  }

  /** The mixed-radix digits of p in bases l and m, least significant first. */
  function Digits(p: nat, l: nat, m: nat): Voxel
    requires l > 0 && m > 0
  {
    Voxel(p % l, (p / l) % m, (p / l) / m)
  }

  /** The mixed-radix digits of p in bases l and m: each in range, and recombining them
      gives p back. */
  lemma UnravelDigits(p: nat, l: nat, m: nat, n: nat)
    requires p < l * m * n
    ensures l > 0 && m > 0 && n > 0
    ensures Digits(p, l, m).i < l && Digits(p, l, m).j < m && Digits(p, l, m).k < n
    ensures FlatIndex(Digits(p, l, m).i, Digits(p, l, m).j, Digits(p, l, m).k, l, m, n) == p
  {
    PositiveFactors(l, m, n);
    var q := p / l;
    assert q < m * n by { DivBelow(p, l, m * n); }
    assert q / m < n by { DivBelow(q, m, n); }
    var i, j, k := p % l, q % m, q / m;
    DivMod(p, l);
    DivMod(q, m);
    Recombine(p, l, m, q, i, j, k);
  }

  /** Euclidean division splits a into quotient and remainder. */
  lemma DivMod(a: nat, d: nat)
    requires d > 0
    ensures a == d * (a / d) + a % d
  {
  }

  /** Two digit splittings combine into the three-digit column-major form. */
  lemma Recombine(p: int, l: int, m: int, q: int, i: int, j: int, k: int)
    requires q == m * k + j && p == l * q + i
    ensures i + l * j + l * m * k == p
  {
    calc {
      i + l * j + l * m * k;
      { MulAssoc(l, m, k); }
      i + l * j + l * (m * k);
      { Distrib(l, j, m * k); }
      i + l * (j + m * k);
      i + l * q;
    }
  }

  lemma Distrib(a: int, b: int, c: int)
    ensures a * b + a * c == a * (b + c)
  {
  }

  /** Flattening voxel (i, j, k) and unravelling the position gives the voxel back. */
  lemma UnravelFlatIndex(i: nat, j: nat, k: nat, l: nat, m: nat, n: nat)
    requires i < l && j < m && k < n
    ensures Unravel(FlatIndex(i, j, k, l, m, n), l, m, n) == Voxel(i, j, k)
  {
    var p := FlatIndex(i, j, k, l, m, n);
    var q := j + m * k;
    calc {
      p;
      i + l * j + l * m * k;
      { MulAssoc(l, m, k); }
      i + l * (j + m * k);
    }
    DivModUnique(p, l, q, i);
    DivModUnique(q, m, k, j);
  }

  /** Column-major flattening is injective: distinct voxels land on distinct positions.
      (`Unravel` supplies the other half of the bijection: every position is some voxel's.) */
  lemma FlatIndexInjective(i1: nat, j1: nat, k1: nat, i2: nat, j2: nat, k2: nat, l: nat, m: nat, n: nat)
    requires i1 < l && j1 < m && k1 < n
    requires i2 < l && j2 < m && k2 < n
    requires FlatIndex(i1, j1, k1, l, m, n) == FlatIndex(i2, j2, k2, l, m, n)
    ensures i1 == i2 && j1 == j2 && k1 == k2
  {
    UnravelFlatIndex(i1, j1, k1, l, m, n);
    UnravelFlatIndex(i2, j2, k2, l, m, n);
  }

  /** numpy's `reshape(l*m*n, order='F')` of a grid. */
  function Flatten<T>(g: Grid<T>, l: nat, m: nat, n: nat): (v: seq<T>)
    requires IsGrid(g, l, m, n)
    ensures |v| == l * m * n
  {
    seq(l * m * n, p requires 0 <= p < l * m * n =>
      var w := Unravel(p, l, m, n); g[w.i][w.j][w.k])
  }

  /** numpy's `reshape(l, m, n, order='F')` of a vector of length l m n. */
  function Unflatten<T>(v: seq<T>, l: nat, m: nat, n: nat): (g: Grid<T>)
    requires |v| == l * m * n
    ensures IsGrid(g, l, m, n)
  {
    seq(l, i requires 0 <= i < l =>
      seq(m, j requires 0 <= j < m =>
        seq(n, k requires 0 <= k < n => v[FlatIndex(i, j, k, l, m, n)])))
  }

  /** Flattening puts voxel (i, j, k) at position i + l j + l m k. */
  lemma FlattenAt<T>(g: Grid<T>, l: nat, m: nat, n: nat, i: nat, j: nat, k: nat)
    requires IsGrid(g, l, m, n)
    requires i < l && j < m && k < n
    ensures Flatten(g, l, m, n)[FlatIndex(i, j, k, l, m, n)] == g[i][j][k]
  {
    UnravelFlatIndex(i, j, k, l, m, n);
  }

  /** `FlattenAt` for every voxel at once. */
  lemma FlattenAtAll<T>(g: Grid<T>, l: nat, m: nat, n: nat)
    requires IsGrid(g, l, m, n)
    ensures forall i, j, k :: 0 <= i < l && 0 <= j < m && 0 <= k < n ==>
      Flatten(g, l, m, n)[FlatIndex(i, j, k, l, m, n)] == g[i][j][k]
  {
    forall i, j, k | 0 <= i < l && 0 <= j < m && 0 <= k < n
      ensures Flatten(g, l, m, n)[FlatIndex(i, j, k, l, m, n)] == g[i][j][k]
    {
      FlattenAt(g, l, m, n, i, j, k);
    }
  }

  /** Reshaping a flattened grid back with the same order restores the grid. */
  lemma UnflattenFlatten<T>(g: Grid<T>, l: nat, m: nat, n: nat)
    requires IsGrid(g, l, m, n)
    ensures Unflatten(Flatten(g, l, m, n), l, m, n) == g
  {
    var h := Unflatten(Flatten(g, l, m, n), l, m, n);
    forall i | 0 <= i < l
      ensures h[i] == g[i]
    {
      forall j | 0 <= j < m
        ensures h[i][j] == g[i][j]
      {
        forall k | 0 <= k < n
          ensures h[i][j][k] == g[i][j][k]
        {
          FlattenAt(g, l, m, n, i, j, k);
        }
      }
    }
  }

  /** Flattening a reshaped vector restores the vector. */
  lemma FlattenUnflatten<T>(v: seq<T>, l: nat, m: nat, n: nat)
    requires |v| == l * m * n
    ensures Flatten(Unflatten(v, l, m, n), l, m, n) == v
  {
    var w := Flatten(Unflatten(v, l, m, n), l, m, n);
    forall p | 0 <= p < l * m * n
      ensures w[p] == v[p]
    {
      var x := Unravel(p, l, m, n);
    }
  }

  /** Two grids of the same shape that agree at every voxel are equal. */
  lemma GridExtensionality<T>(g: Grid<T>, g': Grid<T>, l: nat, m: nat, n: nat)
    requires IsGrid(g, l, m, n) && IsGrid(g', l, m, n)
    requires forall i, j, k :: 0 <= i < l && 0 <= j < m && 0 <= k < n ==> g[i][j][k] == g'[i][j][k]
    ensures g == g'
  {
    forall i | 0 <= i < l
      ensures g[i] == g'[i]
    {
      forall j | 0 <= j < m
        ensures g[i][j] == g'[i][j]
      {
      }
    }
  }

  /** The middle index floor(m / 2) used to take a central slice is a valid index. */
  function CentreIndex(m: nat): (c: nat)
    requires m >= 1
    ensures c < m
    ensures 2 * c <= m < 2 * c + 2
  {
    m / 2
  }

  /** A grid of shape (l, m, n) holding `v` everywhere: numpy's `zeros`/`ones`. */
  function Fill<T>(l: nat, m: nat, n: nat, v: T): (g: Grid<T>)
    ensures IsGrid(g, l, m, n)
  {
    seq(l, i => seq(m, j => seq(n, k => v)))
  }

  /** numpy's `g[mask] = v`: the voxels selected by the mask take the value `v`. */
  function AssignWhere<T>(g: Grid<T>, mask: Grid<bool>, v: T, l: nat, m: nat, n: nat): (r: Grid<T>)
    requires IsGrid(g, l, m, n) && IsGrid(mask, l, m, n)
    ensures IsGrid(r, l, m, n)
  {
    seq(l, i requires 0 <= i < l =>
      seq(m, j requires 0 <= j < m =>
        seq(n, k requires 0 <= k < n => if mask[i][j][k] then v else g[i][j][k])))
  }

  /** numpy's `g[mask] = src[mask]`: the selected voxels are copied from `src`. */
  function CopyWhere<T>(g: Grid<T>, mask: Grid<bool>, src: Grid<T>, l: nat, m: nat, n: nat): (r: Grid<T>)
    requires IsGrid(g, l, m, n) && IsGrid(mask, l, m, n) && IsGrid(src, l, m, n)
    ensures IsGrid(r, l, m, n)
  {
    seq(l, i requires 0 <= i < l =>
      seq(m, j requires 0 <= j < m =>
        seq(n, k requires 0 <= k < n => if mask[i][j][k] then src[i][j][k] else g[i][j][k])))
  }

  /** numpy's `np.invert(mask)`. */
  function Invert(mask: Grid<bool>, l: nat, m: nat, n: nat): (r: Grid<bool>)
    requires IsGrid(mask, l, m, n)
    ensures IsGrid(r, l, m, n)
  {
    seq(l, i requires 0 <= i < l =>
      seq(m, j requires 0 <= j < m =>
        seq(n, k requires 0 <= k < n => !mask[i][j][k])))
  }

  // Integer arithmetic facts used by the index proofs.

  lemma MulLeq(a: nat, b: int, c: int)
    requires b <= c
    ensures a * b <= a * c
  {
  }

  lemma MulAssoc(a: int, b: int, c: int)
    ensures a * b * c == a * (b * c)
  {
  }

  lemma PositiveFactors(l: nat, m: nat, n: nat)
    requires l * m * n > 0
    ensures l > 0 && m > 0 && n > 0
  {
    ZeroFactor(l, m, n);
  }

  lemma ZeroFactor(l: nat, m: nat, n: nat)
    ensures l == 0 || m == 0 || n == 0 ==> l * m * n == 0
  {
  }

  /** A nonzero multiple of d is at least d in size. */
  lemma MulSign(d: int, x: int)
    requires d >= 0
    ensures x >= 1 ==> d * x >= d
    ensures x <= -1 ==> d * x <= -d
  {
  }

  /** Euclidean division is determined by quotient and remainder. */
  lemma DivModUnique(a: int, d: int, q: int, r: int)
    requires d > 0 && 0 <= r < d
    requires a == d * q + r
    ensures a / d == q && a % d == r
  {
    var q' := a / d;
    var r' := a % d;
    assert a == d * q' + r';
    assert d * (q - q') == r' - r;
    MulSign(d, q - q');
  }

  /** A quotient stays below the bound its dividend respects. */
  lemma DivBelow(p: nat, d: nat, c: nat)
    requires d > 0 && p < d * c
    ensures p / d < c
  {
    if c <= p / d {
      MulLeq(d, c, p / d);
    }
    assert d * (p / d) <= p;
  }
}

=== FILE: harmonics.dfy ===
/** The nonlinear HIFU demo (demo/hifu/transducer_nonlinear.py): the per-harmonic
    wavenumbers, the incident field of the bowl on the voxel grid with the shell
    singularities removed, and the cascade in which each higher harmonic is the volume
    potential of a forcing built from the lower ones. The volume-potential operator itself
    (kernel assembly, circulant embedding, FFT products) is a parameter. */
module Harmonics {
  import opened Maths
  import opened Outcome
  import opened Grids
  import opened Bowl
  import opened Transducer
  import opened Calibration

  /** Lines 42-46: sound speed, density, attenuation law (alpha0, eta) and nonlinearity. */
  datatype Medium = Medium(c: real, rho: real, alpha0: real, eta: nat, beta: real)

  /** The water of the demo. */
  const Water: Medium := Medium(1487.0, 998.0, 0.217, 2, 3.5)

  /** Lines 49-52: the power law alpha0 (f / 1 MHz)^eta. alpha0 is the attenuation at the
      1 MHz reference frequency, and no frequency is amplified. */
  function Attenuation(f: real, alpha0: real, eta: nat): (a: real)
    ensures f == 1000000.0 ==> a == alpha0
    ensures f >= 0.0 && alpha0 >= 0.0 ==> a >= 0.0
  {
    PowOne(eta);
    PowNonnegative(f * 0.000001, eta);
    alpha0 * Pow(f * 0.000001, eta)
  }

  /** Lines 76 and 150: the complex wavenumber 2 pi f / c + i alpha(f). Its real part obeys
      the dispersion relation c Re k = omega, and its imaginary part makes the wave decay. */
  function Wavenumber(lib: Lib, med: Medium, f: real): (k: Complex)
    requires med.c != 0.0
    ensures k.re * med.c == 2.0 * lib.pi * f
    ensures f >= 0.0 && med.alpha0 >= 0.0 ==> k.im >= 0.0
  {
    Complex(2.0 * lib.pi * f / med.c, Attenuation(f, med.alpha0, med.eta))
  }

  /** The demo's water at its operating frequency f1 = 1.1 MHz (lines 42-45, 61 and 149):
      the fundamental is attenuated by 0.217 * 1.1^2 and the second harmonic by
      0.217 * 2.2^2. */
  lemma WaterAttenuation()
    ensures Attenuation(1100000.0, Water.alpha0, Water.eta) == 0.26257
    ensures Attenuation(2200000.0, Water.alpha0, Water.eta) == 1.05028
  {
  }

  /** Line 149: harmonic index h (0 for the fundamental) oscillates at (h + 1) f1. */
  function HarmonicFrequency(f1: real, h: nat): real {
    (h + 1) as real * f1
  }

  /** The wavenumber schedule: the real part grows linearly with the harmonic number and the
      attenuation by the power law, Re k_h = (h+1) Re k_1 and Im k_h = (h+1)^eta Im k_1. */
  lemma WavenumberSchedule(lib: Lib, med: Medium, f1: real, h: nat)
    requires med.c != 0.0
    ensures Wavenumber(lib, med, HarmonicFrequency(f1, h)).re == (h + 1) as real * Wavenumber(lib, med, f1).re
    ensures Wavenumber(lib, med, HarmonicFrequency(f1, h)).im
            == Pow((h + 1) as real, med.eta) * Wavenumber(lib, med, f1).im
  {
    WavenumberRe(lib, med, f1, h);
    WavenumberIm(lib, med, f1, h);
  }

  lemma WavenumberRe(lib: Lib, med: Medium, f1: real, h: nat)
    requires med.c != 0.0
    ensures Wavenumber(lib, med, HarmonicFrequency(f1, h)).re == (h + 1) as real * Wavenumber(lib, med, f1).re
  {
    var n := (h + 1) as real;
    calc {
      Wavenumber(lib, med, HarmonicFrequency(f1, h)).re;
      2.0 * lib.pi * (n * f1) / med.c;
      { QuotientScale(2.0 * lib.pi, n, f1, med.c); }
      n * (2.0 * lib.pi * f1 / med.c);
    }
  }

  lemma WavenumberIm(lib: Lib, med: Medium, f1: real, h: nat)
    ensures Attenuation(HarmonicFrequency(f1, h), med.alpha0, med.eta)
            == Pow((h + 1) as real, med.eta) * Attenuation(f1, med.alpha0, med.eta)
  {
    var n := (h + 1) as real;
    var y := f1 * 0.000001;
    var x := HarmonicFrequency(f1, h) * 0.000001;
    Assoc(n, f1, 0.000001);
    assert x == n * y;
    calc {
      Attenuation(HarmonicFrequency(f1, h), med.alpha0, med.eta);
      med.alpha0 * Pow(x, med.eta);
      med.alpha0 * Pow(n * y, med.eta);
      { PowMul(n, y, med.eta); }
      med.alpha0 * (Pow(n, med.eta) * Pow(y, med.eta));
      { Commute3(med.alpha0, Pow(n, med.eta), Pow(y, med.eta)); }
      Pow(n, med.eta) * (med.alpha0 * Pow(y, med.eta));
    }
  }

  /** Line 77: the angular frequency of the fundamental. */
  function Omega(lib: Lib, f1: real): real {
    2.0 * lib.pi * f1
  }

  /** The common factor beta omega^2 / (rho c^4) of the forcing table (lines 163-174). */
  function NonlinearFactor(lib: Lib, med: Medium, f1: real): real
    requires med.rho != 0.0 && med.c != 0.0
  {
    PowNonzero(med.c, 4);
    MulNonzero(med.rho, Pow(med.c, 4));
    med.beta * Pow(Omega(lib, f1), 2) / (med.rho * Pow(med.c, 4))
  }

  /** Lines 161-174: the forcing of harmonic h, 1 <= h <= 4, at one voxel, from the values
      `lower` of the harmonics 0 .. h-1 there; s is the factor beta omega^2 / (rho c^4). */
  function SourceTerm(s: real, h: nat, lower: seq<Complex>): (r: Complex)
    requires 1 <= h <= 4 && |lower| >= h
    ensures (forall q :: 0 <= q < h ==> lower[q] == Zero) ==> r == Zero
  {
    ScaleZero(2.0);
    AddZero(Zero);
    match h
    case 1 =>
      MulZero(lower[0], lower[0]);
      ScaleZero(-2.0 * s);
      Scale(-2.0 * s, Mul(lower[0], lower[0]))
    case 2 =>
      MulZero(lower[0], lower[1]);
      ScaleZero(-9.0 * s);
      Scale(-9.0 * s, Mul(lower[0], lower[1]))
    case 3 =>
      MulZero(lower[1], lower[1]);
      MulZero(lower[0], lower[2]);
      ScaleZero(-8.0 * s);
      Scale(-8.0 * s, Add(Mul(lower[1], lower[1]), Scale(2.0, Mul(lower[0], lower[2]))))
    case 4 =>
      MulZero(lower[0], lower[3]);
      MulZero(lower[1], lower[2]);
      ScaleZero(-25.0 * s);
      Scale(-25.0 * s, Add(Mul(lower[0], lower[3]), Mul(lower[1], lower[2])))
  }

  /** Where the forcing vanishes: for the second and third harmonics exactly where one of the
      factors vanishes (as beta omega^2 / (rho c^4) is nonzero); for the fourth and fifth at
      least wherever every product term does. */
  lemma SourceTermZero(s: real, h: nat, lower: seq<Complex>)
    requires s != 0.0
    requires 1 <= h <= 4 && |lower| >= h
    ensures h == 1 ==> (SourceTerm(s, h, lower) == Zero <==> lower[0] == Zero)
    ensures h == 2 ==> (SourceTerm(s, h, lower) == Zero <==> lower[0] == Zero || lower[1] == Zero)
    ensures h == 3 && Mul(lower[1], lower[1]) == Zero && Mul(lower[0], lower[2]) == Zero ==>
      SourceTerm(s, h, lower) == Zero
    ensures h == 4 && Mul(lower[0], lower[3]) == Zero && Mul(lower[1], lower[2]) == Zero ==>
      SourceTerm(s, h, lower) == Zero
  {
    match h
    case 1 =>
      ScaleZeroIff(-2.0 * s, Mul(lower[0], lower[0]));
      MulZeroIff(lower[0], lower[0]);
    case 2 =>
      ScaleZeroIff(-9.0 * s, Mul(lower[0], lower[1]));
      MulZeroIff(lower[0], lower[1]);
    case 3 =>
    case 4 =>
  }

  /** The forcing is a quadratic form: scaling all lower harmonics by t scales it by t^2. */
  lemma SourceTermQuadratic(s: real, h: nat, lower: seq<Complex>, t: real)
    requires 1 <= h <= 4 && |lower| >= h
    ensures SourceTerm(s, h, seq(|lower|, q requires 0 <= q < |lower| => Scale(t, lower[q])))
            == Scale(t * t, SourceTerm(s, h, lower))
  {
    var sc := seq(|lower|, q requires 0 <= q < |lower| => Scale(t, lower[q]));
    var u := t * t;
    match h
    case 1 =>
      MulScale(t, lower[0], lower[0]);
      ScaleCommute(-2.0 * s, u, Mul(lower[0], lower[0]));
    case 2 =>
      MulScale(t, lower[0], lower[1]);
      ScaleCommute(-9.0 * s, u, Mul(lower[0], lower[1]));
    case 3 =>
      MulScale(t, lower[1], lower[1]);
      MulScale(t, lower[0], lower[2]);
      ScaleCommute(2.0, u, Mul(lower[0], lower[2]));
      AddScale(u, Mul(lower[1], lower[1]), Scale(2.0, Mul(lower[0], lower[2])));
      ScaleCommute(-8.0 * s, u, Add(Mul(lower[1], lower[1]), Scale(2.0, Mul(lower[0], lower[2]))));
    case 4 =>
      MulScale(t, lower[0], lower[3]);
      MulScale(t, lower[1], lower[2]);
      AddScale(u, Mul(lower[0], lower[3]), Mul(lower[1], lower[2]));
      ScaleCommute(-25.0 * s, u, Add(Mul(lower[0], lower[3]), Mul(lower[1], lower[2])));
  }

  /** A stack of harmonic fields, all of shape (l, m, n): numpy's P[h]. */
  predicate IsStack(p: seq<Grid<Complex>>, l: nat, m: nat, n: nat) {
    forall q :: 0 <= q < |p| ==> IsGrid(p[q], l, m, n)
  }

  /** The values of harmonics 0 .. h-1 at voxel (i, j, k). */
  function Column(p: seq<Grid<Complex>>, h: nat, i: nat, j: nat, k: nat, l: nat, m: nat, n: nat): (c: seq<Complex>)
    requires IsStack(p, l, m, n) && h <= |p|
    requires i < l && j < m && k < n
    ensures |c| == h
  {
    seq(h, q requires 0 <= q < h => p[q][i][j][k])
  }

  /** The forcing grid `xIn` of harmonic h, built voxel by voxel. */
  function ForcingGrid(s: real, h: nat, p: seq<Grid<Complex>>, l: nat, m: nat, n: nat): (f: Grid<Complex>)
    requires 1 <= h <= 4 && h <= |p| && IsStack(p, l, m, n)
    ensures IsGrid(f, l, m, n)
  {
    seq(l, i requires 0 <= i < l =>
      seq(m, j requires 0 <= j < m =>
        seq(n, k requires 0 <= k < n => SourceTerm(s, h, Column(p, h, i, j, k, l, m, n)))))
  }

  /** Locality: the forcing at a voxel depends only on the lower harmonics at that voxel. */
  lemma ForcingLocal(s: real, h: nat, p: seq<Grid<Complex>>, p': seq<Grid<Complex>>,
                     l: nat, m: nat, n: nat, i: nat, j: nat, k: nat)
    requires 1 <= h <= 4 && h <= |p| && h <= |p'| && IsStack(p, l, m, n) && IsStack(p', l, m, n)
    requires i < l && j < m && k < n
    requires forall q :: 0 <= q < h ==> p[q][i][j][k] == p'[q][i][j][k]
    ensures ForcingGrid(s, h, p, l, m, n)[i][j][k] == ForcingGrid(s, h, p', l, m, n)[i][j][k]
  {
    assert Column(p, h, i, j, k, l, m, n) == Column(p', h, i, j, k, l, m, n);
  }

  /** The dependency is strictly forward: the forcing of harmonic h reads only P[0 .. h-1],
      so whatever the stack holds from index h on does not matter. */
  lemma ForcingReadsLower(s: real, h: nat, p: seq<Grid<Complex>>, p': seq<Grid<Complex>>, l: nat, m: nat, n: nat)
    requires 1 <= h <= 4 && h <= |p| && h <= |p'| && IsStack(p, l, m, n) && IsStack(p', l, m, n)
    requires p[..h] == p'[..h]
    ensures ForcingGrid(s, h, p, l, m, n) == ForcingGrid(s, h, p', l, m, n)
  {
    var f, f' := ForcingGrid(s, h, p, l, m, n), ForcingGrid(s, h, p', l, m, n);
    forall i, j, k | 0 <= i < l && 0 <= j < m && 0 <= k < n
      ensures f[i][j][k] == f'[i][j][k]
    {
      forall q | 0 <= q < h
        ensures p[q][i][j][k] == p'[q][i][j][k]
      {
        assert p[q] == p[..h][q];
      }
      ForcingLocal(s, h, p, p', l, m, n, i, j, k);
    }
    GridExtensionality(f, f', l, m, n);
  }

  /** The volume-potential product of lines 179-188 (`mvp_volume_potential` with the
      all-true mask and unit `Mr`), for the wavenumber of the harmonic being computed; it
      lives outside the modelled files. */
  type VolumeOp = (Complex, seq<Complex>) -> seq<Complex>

  /** The only property of the operator the cascade relies on: it maps a vector of L M N
      voxel values to another of the same length. */
  ghost predicate ShapePreserving(op: VolumeOp) {
    forall k, v :: |op(k, v)| == |v|
  }

  /** Everything the cascade is run with besides the fields. */
  datatype Setting = Setting(med: Medium, f1: real, op: VolumeOp, l: nat, m: nat, n: nat)

  ghost predicate Physical(st: Setting) {
    st.med.c != 0.0 && st.med.rho != 0.0 && ShapePreserving(st.op)
  }

  /** Lines 176 and 188: flatten the forcing in column-major order, apply the volume
      potential at the wavenumber of harmonic h, and reshape the result back. */
  function Propagate(lib: Lib, st: Setting, h: nat, forcing: Grid<Complex>): (g: Grid<Complex>)
    requires Physical(st) && IsGrid(forcing, st.l, st.m, st.n)
    ensures IsGrid(g, st.l, st.m, st.n)
    ensures Flatten(g, st.l, st.m, st.n)
            == st.op(Wavenumber(lib, st.med, HarmonicFrequency(st.f1, h)), Flatten(forcing, st.l, st.m, st.n))
  {
    var k := Wavenumber(lib, st.med, HarmonicFrequency(st.f1, h));
    var v := st.op(k, Flatten(forcing, st.l, st.m, st.n));
    FlattenUnflatten(v, st.l, st.m, st.n);
    Unflatten(v, st.l, st.m, st.n)
  }

  /** Harmonic h computed from the stack of the lower ones. */
  function NextHarmonic(lib: Lib, st: Setting, p: seq<Grid<Complex>>, h: nat): (g: Grid<Complex>)
    requires Physical(st) && 1 <= h <= 4 && h <= |p| && IsStack(p, st.l, st.m, st.n)
    ensures IsGrid(g, st.l, st.m, st.n)
  {
    Propagate(lib, st, h, ForcingGrid(NonlinearFactor(lib, st.med, st.f1), h, p, st.l, st.m, st.n))
  }

  /** The first `count` harmonics: the incident field, then each harmonic from the ones
      below it. */
  function Stack(lib: Lib, st: Setting, incident: Grid<Complex>, count: nat): (p: seq<Grid<Complex>>)
    requires Physical(st) && IsGrid(incident, st.l, st.m, st.n)
    requires 1 <= count <= 5
    ensures |p| == count && IsStack(p, st.l, st.m, st.n) && p[0] == incident
  {
    if count == 1 then [incident]
    else
      var below := Stack(lib, st, incident, count - 1);
      below + [NextHarmonic(lib, st, below, count - 1)]
  }

  /** Computing more harmonics never changes the ones already computed. */
  lemma {:induction false} StackPrefix(lib: Lib, st: Setting, incident: Grid<Complex>, c1: nat, c2: nat)
    requires Physical(st) && IsGrid(incident, st.l, st.m, st.n)
    requires 1 <= c1 <= c2 <= 5
    ensures Stack(lib, st, incident, c2)[..c1] == Stack(lib, st, incident, c1)
  {
    if c1 < c2 {
      StackPrefix(lib, st, incident, c1, c2 - 1);
      var below := Stack(lib, st, incident, c2 - 1);
      assert Stack(lib, st, incident, c2)[..c2 - 1] == below;
    }
  }

  /** The cascade relation: every harmonic h >= 1 of the stack is the volume potential of
      the forcing built from the harmonics below it. */
  lemma StackRecurrence(lib: Lib, st: Setting, incident: Grid<Complex>, count: nat, h: nat)
    requires Physical(st) && IsGrid(incident, st.l, st.m, st.n)
    requires 1 <= count <= 5 && 1 <= h < count
    ensures var p := Stack(lib, st, incident, count);
      p[h] == NextHarmonic(lib, st, p[..h], h)
  {
    StackPrefix(lib, st, incident, h + 1, count);
    var p := Stack(lib, st, incident, count);
    assert p[h] == p[..h + 1][h];
    StackPrefix(lib, st, incident, h, count);
  }

  /** Lines 116-118 and 147-188 with the forcing table's range enforced: the stack needs a
      slot for the incident field, the forcing divides by rho c^4, and only harmonics 1 .. 4
      have a forcing. */
  function Cascade(lib: Lib, st: Setting, incident: Grid<Complex>, nHarm: int): (r: Result<seq<Grid<Complex>>>)
    requires ShapePreserving(st.op) && IsGrid(incident, st.l, st.m, st.n)
    ensures r.Success? <==> 1 <= nHarm <= 5 && (nHarm == 1 || (st.med.c != 0.0 && st.med.rho != 0.0))
    ensures nHarm < 1 ==> r == Failure(EmptyStack)
    ensures nHarm >= 2 && (st.med.c == 0.0 || st.med.rho == 0.0) ==> r == Failure(ZeroDivision)
    ensures nHarm > 5 && st.med.c != 0.0 && st.med.rho != 0.0 ==> r == Failure(UnsupportedHarmonic)
    ensures r.Success? ==> |r.value| == nHarm && r.value[0] == incident && IsStack(r.value, st.l, st.m, st.n)
    ensures r.Success? && Physical(st) ==>
      forall h :: 1 <= h < nHarm ==> r.value[h] == NextHarmonic(lib, st, r.value[..h], h)
  {
    if nHarm < 1 then Failure(EmptyStack)
    else if nHarm == 1 then Success([incident])
    else if st.med.c == 0.0 || st.med.rho == 0.0 then Failure(ZeroDivision)
    else if nHarm > 5 then Failure(UnsupportedHarmonic)
    else
      AllRecurrences(lib, st, incident, nHarm);
      Success(Stack(lib, st, incident, nHarm))
  }

  lemma AllRecurrences(lib: Lib, st: Setting, incident: Grid<Complex>, count: nat)
    requires Physical(st) && IsGrid(incident, st.l, st.m, st.n)
    requires 1 <= count <= 5
    ensures forall h :: 1 <= h < count ==>
      Stack(lib, st, incident, count)[h] == NextHarmonic(lib, st, Stack(lib, st, incident, count)[..h], h)
  {
    forall h | 1 <= h < count
      ensures Stack(lib, st, incident, count)[h] == NextHarmonic(lib, st, Stack(lib, st, incident, count)[..h], h)
    {
      StackRecurrence(lib, st, incident, count, h);
    }
  }

  /** The corrected cascade loop, run on an array: P is allocated full of zeros, P[0] receives the
      incident field, and P[h] is written once, in increasing h, from the forcing built out
      of the whole array. */
  method RunCascade(lib: Lib, st: Setting, incident: Grid<Complex>, nHarm: int) returns (r: Result<seq<Grid<Complex>>>)
    requires ShapePreserving(st.op) && IsGrid(incident, st.l, st.m, st.n)
    ensures r == Cascade(lib, st, incident, nHarm)
  {
    if nHarm < 1 {
      return Failure(EmptyStack);
    }
    if nHarm > 1 && (st.med.c == 0.0 || st.med.rho == 0.0) {
      return Failure(ZeroDivision);
    }
    if nHarm > 5 {
      return Failure(UnsupportedHarmonic);
    }
    var zeros := Fill(st.l, st.m, st.n, Zero);
    var p := seq(nHarm, q => zeros);
    p := p[0 := incident];
    var h := 1;
    while h < nHarm
      invariant 1 <= h <= nHarm
      invariant |p| == nHarm && IsStack(p, st.l, st.m, st.n)
      invariant p[0] == incident
      invariant nHarm >= 2 ==> Physical(st) && p[..h] == Stack(lib, st, incident, h)
      invariant forall q :: h <= q < nHarm ==> p[q] == zeros
    {
      var s := NonlinearFactor(lib, st.med, st.f1);
      var forcing := ForcingGrid(s, h, p, st.l, st.m, st.n);
      ghost var below := Stack(lib, st, incident, h);
      ForcingReadsLower(s, h, p, below, st.l, st.m, st.n);
      var next := Propagate(lib, st, h, forcing);
      assert next == NextHarmonic(lib, st, below, h);
      p := p[h := next];
      assert p[..h + 1] == below + [next];
      h := h + 1;
    }
    if nHarm == 1 {
      assert p == [incident];
    } else {
      assert p == p[..h];
      AllRecurrences(lib, st, incident, nHarm);
    }
    return Success(p);
  }

  /** The loop as written keeps the previous forcing `xIn` when no branch of the table
      applies: the state after each iteration is the stack so far and that forcing. */
  datatype Progress = Progress(stack: seq<Grid<Complex>>, forcing: Option<Grid<Complex>>)

  /** Lines 148-188 as written, for any number of harmonics: from index 5 on no branch of
      the if/elif chain matches and the forcing of the previous iteration is used again. */
  function CascadeAsWritten(lib: Lib, st: Setting, incident: Grid<Complex>, count: nat): (r: Progress)
    requires Physical(st) && IsGrid(incident, st.l, st.m, st.n)
    requires count >= 1
    ensures |r.stack| == count && IsStack(r.stack, st.l, st.m, st.n)
    ensures count >= 2 <==> r.forcing.Some?
    ensures r.forcing.Some? ==> IsGrid(r.forcing.value, st.l, st.m, st.n)
  {
    if count == 1 then Progress([incident], None)
    else
      var before := CascadeAsWritten(lib, st, incident, count - 1);
      var h := count - 1;
      var forcing :=
        if h <= 4 then ForcingGrid(NonlinearFactor(lib, st.med, st.f1), h, before.stack, st.l, st.m, st.n)
        else before.forcing.value;
      Progress(before.stack + [Propagate(lib, st, h, forcing)], Some(forcing))
  }

  /** Where the table covers every index, the loop as written computes the cascade. */
  lemma {:induction false} AsWrittenAgrees(lib: Lib, st: Setting, incident: Grid<Complex>, count: nat)
    requires Physical(st) && IsGrid(incident, st.l, st.m, st.n)
    requires 1 <= count <= 5
    ensures CascadeAsWritten(lib, st, incident, count).stack == Stack(lib, st, incident, count)
  {
    if count > 1 {
      AsWrittenAgrees(lib, st, incident, count - 1);
    }
  }

  /** With six harmonics (n_harm = 6) the loop as written drives harmonic index 5 with the
      forcing of harmonic index 4, so both are the volume potential of one and the same
      source term, evaluated at two different wavenumbers. */
  lemma AsWrittenStaleForcing(lib: Lib, st: Setting, incident: Grid<Complex>)
    requires Physical(st) && IsGrid(incident, st.l, st.m, st.n)
    ensures var p := CascadeAsWritten(lib, st, incident, 6).stack;
      var stale := ForcingGrid(NonlinearFactor(lib, st.med, st.f1), 4, p[..4], st.l, st.m, st.n);
      && p[4] == Propagate(lib, st, 4, stale)
      && p[5] == Propagate(lib, st, 5, stale)
  {
    var r5 := CascadeAsWritten(lib, st, incident, 5);
    var r6 := CascadeAsWritten(lib, st, incident, 6);
    var r4 := CascadeAsWritten(lib, st, incident, 4);
    assert r6.stack[..5] == r5.stack;
    assert r5.stack[..4] == r4.stack;
    assert r6.stack[..4] == r4.stack;
  }

  /** Line 107: the half-width of the shell around the bowl's sphere. */
  const ShellTolerance: real := 0.0005

  /** Lines 105-107: `pt` lies within the tolerance of the sphere of radius `roc` about
      (focus[0], 0, 0), on which the bowl's sources sit. */
  predicate NearShell(lib: Lib, focus: Point, roc: real, pt: Point) {
    Abs(Dist(lib, pt, Point(focus.x, 0.0, 0.0)) - roc) < ShellTolerance
  }

  /** The shell test without the square root: for a radius at least the tolerance, a point
      is near the shell exactly when it lies in the open spherical annulus between radii
      roc - 5e-4 and roc + 5e-4. */
  lemma NearShellIff(lib: Lib, focus: Point, roc: real, pt: Point)
    requires Lawful(lib)
    requires roc >= ShellTolerance
    ensures NearShell(lib, focus, roc, pt) <==>
      (roc - ShellTolerance) * (roc - ShellTolerance) < SqDist(pt, Point(focus.x, 0.0, 0.0))
        < (roc + ShellTolerance) * (roc + ShellTolerance)
  {
    var sq := SqDist(pt, Point(focus.x, 0.0, 0.0));
    SqDistNonnegative(pt, Point(focus.x, 0.0, 0.0));
    SqrtExceeds(lib, sq, roc - ShellTolerance);
    SqrtBelow(lib, sq, roc + ShellTolerance);
  }

  /** Every point exactly on the sphere, in particular every source of a bowl re-oriented
      along x, is near the shell. */
  lemma OnShellIsNear(lib: Lib, focus: Point, roc: real, pt: Point)
    requires Lawful(lib)
    requires roc >= 0.0
    requires SqDist(pt, AxisCentre(AlongX, focus)) == roc * roc
    ensures NearShell(lib, focus, roc, pt)
  {
    SqrtOfSquare(lib, roc);
  }

  /** The bowl's own sources, where the field is singular, all lie near the shell when the
      focal length is the shell radius. */
  lemma BowlSourcesNearShell(lib: Lib, k: Complex, roc: real, focus: Point, radius: real,
                             nElements: int, apertureRadius: real, points: seq<Point>)
    requires Lawful(lib) && nElements >= 1 && roc >= 0.0
    requires BowlTransducer(lib, k, roc, focus, radius, nElements, apertureRadius, points, "x").Success?
    ensures forall q :: q in BowlTransducer(lib, k, roc, focus, radius, nElements, apertureRadius, points, "x").value.sources ==>
      NearShell(lib, focus, roc, q)
  {
    ParseAxisCases("x");
    var sources := BowlTransducer(lib, k, roc, focus, radius, nElements, apertureRadius, points, "x").value.sources;
    forall q | q in sources
      ensures NearShell(lib, focus, roc, q)
    {
      OnShellIsNear(lib, focus, roc, q);
    }
  }

  /** Line 108: `p[idx_near] = 0`. */
  function ZeroNearShell(lib: Lib, focus: Point, roc: real, points: seq<Point>, p: seq<Complex>): (r: seq<Complex>)
    requires |p| == |points|
    ensures |r| == |p|
    ensures forall i :: 0 <= i < |p| && NearShell(lib, focus, roc, points[i]) ==> r[i] == Zero
    ensures forall i :: 0 <= i < |p| && !NearShell(lib, focus, roc, points[i]) ==> r[i] == p[i]
  {
    seq(|p|, i requires 0 <= i < |p| => if NearShell(lib, focus, roc, points[i]) then Zero else p[i])
  }

  /** Zeroing twice is zeroing once. */
  lemma ZeroNearShellIdempotent(lib: Lib, focus: Point, roc: real, points: seq<Point>, p: seq<Complex>)
    requires |p| == |points|
    ensures ZeroNearShell(lib, focus, roc, points, ZeroNearShell(lib, focus, roc, points, p))
            == ZeroNearShell(lib, focus, roc, points, p)
  {
  }

  /** Lines 76 and 97-118: the incident field on the voxel grid. The wavenumber k1 divides by
      the sound speed, a Python float, so a zero speed raises. The grid's points are
      flattened in column-major order, the bowl (focused at (roc, 0, 0), along x) is evaluated
      at them, the near-shell values are zeroed, the result is scaled by the calibrated
      amplitude and reshaped back in the same order. */
  function IncidentField(lib: Lib, med: Medium, f1: real, roc: real, outerD: real, innerD: real,
                         nElements: int, power: real, grid: Grid<Point>, l: nat, m: nat, n: nat): (r: Result<Grid<Complex>>)
    requires Lawful(lib) && nElements >= 1 && IsGrid(grid, l, m, n)
    ensures med.c == 0.0 ==> r == Failure(ZeroDivision)
    ensures med.c != 0.0 && PlanTiling(lib, roc, outerD / 2.0, nElements, innerD / 2.0).Failure? ==>
      r == Failure(PlanTiling(lib, roc, outerD / 2.0, nElements, innerD / 2.0).error)
    ensures med.c != 0.0 && PlanTiling(lib, roc, outerD / 2.0, nElements, innerD / 2.0).Success? ==>
      var p0 := NormalisePower(lib, power, med.rho, med.c, outerD / 2.0, Wavenumber(lib, med, f1), roc,
                               Point(roc, 0.0, 0.0), nElements, innerD / 2.0);
      && (r.Failure? <==> p0.Failure?)
      && (r.Failure? ==> r.error == p0.error)
    ensures r.Success? ==> med.c != 0.0 && IsGrid(r.value, l, m, n)
    ensures r.Success? ==>
      var focus := Point(roc, 0.0, 0.0);
      forall i, j, k :: 0 <= i < l && 0 <= j < m && 0 <= k < n && NearShell(lib, focus, roc, grid[i][j][k]) ==>
        r.value[i][j][k] == Zero
    ensures r.Success? ==>
      var k1 := Wavenumber(lib, med, f1);
      var focus := Point(roc, 0.0, 0.0);
      var field := BowlTransducer(lib, k1, roc, focus, outerD / 2.0, nElements, innerD / 2.0, Flatten(grid, l, m, n), "x");
      var p0 := NormalisePower(lib, power, med.rho, med.c, outerD / 2.0, k1, roc, focus, nElements, innerD / 2.0);
      && field.Success? && p0.Success?
      && |field.value.pressure| == l * m * n
      && forall i, j, k :: 0 <= i < l && 0 <= j < m && 0 <= k < n && !NearShell(lib, focus, roc, grid[i][j][k]) ==>
           r.value[i][j][k] == Scale(p0.value, field.value.pressure[FlatIndex(i, j, k, l, m, n)])
  {
    if med.c == 0.0 then Failure(ZeroDivision)
    else
      var points := Flatten(grid, l, m, n);
      var focus := Point(roc, 0.0, 0.0);
      var k1 := Wavenumber(lib, med, f1);
      match BowlTransducer(lib, k1, roc, focus, outerD / 2.0, nElements, innerD / 2.0, points, "x")
      case Failure(e) =>
        ParseAxisCases("x");
        Failure(e)
      case Success(field) =>
        var p := ZeroNearShell(lib, focus, roc, points, field.pressure);
        match NormalisePower(lib, power, med.rho, med.c, outerD / 2.0, k1, roc, focus, nElements, innerD / 2.0)
        case Failure(e) => Failure(e)
        case Success(p0) =>
          IncidentVoxels(lib, focus, roc, grid, l, m, n, field.pressure, p0);
          Success(Unflatten(ScaleAll(p0, p), l, m, n))
  }

  /** Where each flat value lands after zeroing, scaling and reshaping: voxel (i, j, k)
      receives the value computed for flat point i + l j + l m k, which is that voxel's
      point. */
  lemma IncidentVoxels(lib: Lib, focus: Point, roc: real, grid: Grid<Point>, l: nat, m: nat, n: nat,
                       pressure: seq<Complex>, p0: real)
    requires IsGrid(grid, l, m, n) && |pressure| == l * m * n
    ensures var v := Unflatten(ScaleAll(p0, ZeroNearShell(lib, focus, roc, Flatten(grid, l, m, n), pressure)), l, m, n);
      forall i, j, k :: 0 <= i < l && 0 <= j < m && 0 <= k < n ==>
        v[i][j][k] == (if NearShell(lib, focus, roc, grid[i][j][k]) then Zero
                       else Scale(p0, pressure[FlatIndex(i, j, k, l, m, n)]))
  {
    var points := Flatten(grid, l, m, n);
    var z := ZeroNearShell(lib, focus, roc, points, pressure);
    var v := Unflatten(ScaleAll(p0, z), l, m, n);
    forall i, j, k | 0 <= i < l && 0 <= j < m && 0 <= k < n
      ensures v[i][j][k] == (if NearShell(lib, focus, roc, grid[i][j][k]) then Zero
                             else Scale(p0, pressure[FlatIndex(i, j, k, l, m, n)]))
    {
      var q := FlatIndex(i, j, k, l, m, n);
      FlattenAt(grid, l, m, n, i, j, k);
      assert v[i][j][k] == Scale(p0, z[q]);
    }
  }
}

=== FILE: maths.dfy ===
/** Exact real and complex arithmetic, with the transcendental functions the numerical code
    takes from numpy kept abstract: they are fields of a `Lib` value, and `Lawful` states the
    few identities the proofs rely on. */
module Maths {

  /** A complex number as a pair of reals. */
  datatype Complex = Complex(re: real, im: real)

  const Zero: Complex := Complex(0.0, 0.0)
  const One: Complex := Complex(1.0, 0.0)

  function Add(a: Complex, b: Complex): Complex {
    Complex(a.re + b.re, a.im + b.im)
  }

  function Sub(a: Complex, b: Complex): Complex {
    Complex(a.re - b.re, a.im - b.im)
  }

  function Mul(a: Complex, b: Complex): Complex {
    Complex(a.re * b.re - a.im * b.im, a.re * b.im + a.im * b.re)
  }

  /** Multiplication by a real scalar. */
  function Scale(s: real, a: Complex): Complex {
    Complex(s * a.re, s * a.im)
  }

  /** The squared modulus |a|^2. */
  function AbsSq(a: Complex): real {
    a.re * a.re + a.im * a.im
  }

  /** Scaling by a nonzero real loses nothing: the result is zero exactly when the argument is. */
  lemma ScaleZeroIff(s: real, a: Complex)
    requires s != 0.0
    ensures Scale(s, a) == Zero <==> a == Zero
  {
    if Scale(s, a) == Zero {
      assert s * a.re == 0.0 && s * a.im == 0.0;
    }
  }

  /** A product of two complex numbers vanishes exactly when one factor does. */
  lemma {:induction false} MulZeroIff(a: Complex, b: Complex)
    ensures Mul(a, b) == Zero <==> a == Zero || b == Zero
  {
    if Mul(a, b) == Zero && a != Zero {
      var n := AbsSq(a);
      AbsSqPositive(a);
      var x := a.re * b.re - a.im * b.im;
      var y := a.re * b.im + a.im * b.re;
      assert x == 0.0 && y == 0.0;
      // multiplying by the conjugate of a isolates each part of b
      assert a.re * x + a.im * y == n * b.re;
      assert a.re * y - a.im * x == n * b.im;
      assert n * b.re == 0.0 && n * b.im == 0.0;
    }
  }

  /** The squared modulus is positive exactly on nonzero numbers. */
  lemma AbsSqPositive(a: Complex)
    ensures AbsSq(a) > 0.0 <==> a != Zero
  {
    SquareNonnegative(a.re);
    SquareNonnegative(a.im);
    if a.re != 0.0 {
      SquarePositive(a.re);
      calc { AbsSq(a); == a.re * a.re + a.im * a.im; > 0.0; }
    } else if a.im != 0.0 {
      SquarePositive(a.im);
      calc { AbsSq(a); == a.re * a.re + a.im * a.im; == 0.0 * 0.0 + a.im * a.im; > 0.0; }
      assert a.im != Zero.im;
    } else {
      assert a == Zero;
      calc { AbsSq(a); == 0.0 * 0.0 + 0.0 * 0.0; == 0.0; }
    }
  }

  lemma SquarePositive(x: real)
    requires x != 0.0
    ensures x * x > 0.0
  {
    if x > 0.0 {
      MulPositive(x, x);
    } else {
      MulPositive(-x, -x);
      assert (-x) * (-x) == x * x;
    }
  }

  lemma SquareNonnegative(x: real)
    ensures x * x >= 0.0
  {
  }

  /** |s a|^2 = s^2 |a|^2. */
  lemma AbsSqScale(s: real, a: Complex)
    ensures AbsSq(Scale(s, a)) == s * s * AbsSq(a)
  {
    calc {
      AbsSq(Scale(s, a));
      (s * a.re) * (s * a.re) + (s * a.im) * (s * a.im);
      s * s * (a.re * a.re + a.im * a.im);
    }
  }

  /** A product of positive reals is positive. */
  lemma MulPositive(a: real, b: real)
    requires a > 0.0 && b > 0.0
    ensures a * b > 0.0
  {
  }

  /** A product of nonnegative reals is nonnegative. */
  lemma MulNonnegative(a: real, b: real)
    requires a >= 0.0 && b >= 0.0
    ensures a * b >= 0.0
  {
  }

  /** A product with a zero factor is zero. */
  lemma MulZero(a: Complex, b: Complex)
    ensures a == Zero || b == Zero ==> Mul(a, b) == Zero
  {
  }

  /** Scaling zero gives zero. */
  lemma ScaleZero(s: real)
    ensures Scale(s, Zero) == Zero
  {
  }

  /** Zero is the identity of addition. */
  lemma AddZero(a: Complex)
    ensures Add(a, Zero) == a
  {
  }

  lemma AddAssoc(a: Complex, b: Complex, c: Complex)
    ensures Add(Add(a, b), c) == Add(a, Add(b, c))
  {
  }

  /** Scaling both factors by t scales the product by t^2. */
  lemma MulScale(t: real, a: Complex, b: Complex)
    ensures Mul(Scale(t, a), Scale(t, b)) == Scale(t * t, Mul(a, b))
  {
    ScaledProducts(t, a.re, b.re, a.im, b.im);
    ScaledProducts(t, a.re, b.im, -a.im, b.re);
    assert Mul(Scale(t, a), Scale(t, b)).re == Scale(t * t, Mul(a, b)).re;
    assert Mul(Scale(t, a), Scale(t, b)).im == Scale(t * t, Mul(a, b)).im;
  }

  lemma ScaledProducts(t: real, a: real, b: real, c: real, d: real)
    ensures (t * a) * (t * b) - (t * c) * (t * d) == t * t * (a * b - c * d)
  {
  }

  lemma ScaleCommute(u: real, v: real, a: Complex)
    ensures Scale(u, Scale(v, a)) == Scale(v, Scale(u, a))
  {
    assert u * (v * a.re) == v * (u * a.re);
    assert u * (v * a.im) == v * (u * a.im);
  }

  lemma AddScale(u: real, a: Complex, b: Complex)
    ensures Add(Scale(u, a), Scale(u, b)) == Scale(u, Add(a, b))
  {
  }

  /** The sum of a sequence of complex numbers, accumulated left to right. */
  function Sum(s: seq<Complex>): Complex {
    if s == [] then Zero else Add(Sum(s[..|s| - 1]), s[|s| - 1])
  }

  /** Natural powers of a real. */
  function Pow(x: real, n: nat): real {
    if n == 0 then 1.0 else x * Pow(x, n - 1)
  }

  /** (x y)^n = x^n y^n. */
  lemma {:induction false} PowMul(x: real, y: real, n: nat)
    ensures Pow(x * y, n) == Pow(x, n) * Pow(y, n)
  {
    if n > 0 {
      PowMul(x, y, n - 1);
      var px, py := Pow(x, n - 1), Pow(y, n - 1);
      assert Pow(x * y, n) == (x * y) * (px * py);
      assert Pow(x, n) == x * px && Pow(y, n) == y * py;
      MulRearrange(x, y, px, py);
    }
  }

  /** Powers of a nonzero real are nonzero. */
  lemma {:induction false} PowNonzero(x: real, n: nat)
    requires x != 0.0
    ensures Pow(x, n) != 0.0
  {
    if n > 0 {
      PowNonzero(x, n - 1);
      MulNonzero(x, Pow(x, n - 1));
    }
  }

  /** Every power of 1 is 1. */
  lemma {:induction false} PowOne(n: nat)
    ensures Pow(1.0, n) == 1.0
  {
    if n > 0 {
      PowOne(n - 1);
    }
  }

  /** Powers of a nonnegative real are nonnegative. */
  lemma {:induction false} PowNonnegative(x: real, n: nat)
    ensures x >= 0.0 ==> Pow(x, n) >= 0.0
  {
    if n > 0 && x >= 0.0 {
      PowNonnegative(x, n - 1);
      MulNonnegative(x, Pow(x, n - 1));
    }
  }

  lemma MulNonzero(a: real, b: real)
    requires a != 0.0 && b != 0.0
    ensures a * b != 0.0
  {
  }

  /** (a b)(c d) = (a c)(b d). */
  lemma MulRearrange(a: real, b: real, c: real, d: real)
    ensures (a * b) * (c * d) == (a * c) * (b * d)
  {
  }

  /** numpy's `round` to an integer: to the nearest integer, ties to the even one. */
  function RoundHalfEven(x: real): (n: int)
    ensures x - 0.5 <= n as real <= x + 0.5
    ensures (n as real - x == 0.5 || x - n as real == 0.5) ==> n % 2 == 0
  {
    var f := x.Floor;
    var frac := x - f as real;
    if frac < 0.5 then f
    else if frac > 0.5 then f + 1
    else if f % 2 == 0 then f
    else f + 1
  }

  /** The contract of `RoundHalfEven` pins its value down: no other integer meets it. */
  lemma RoundHalfEvenUnique(x: real, n: int)
    requires x - 0.5 <= n as real <= x + 0.5
    requires (n as real - x == 0.5 || x - n as real == 0.5) ==> n % 2 == 0
    ensures n == RoundHalfEven(x)
  {
  }

  /** A value that rounds to at least 1 is at least one half. */
  lemma RoundAtLeastOne(x: real)
    requires RoundHalfEven(x) >= 1
    ensures x >= 0.5
  {
  }

  /** The transcendental functions the numerical code takes from numpy. */
  datatype Lib = Lib(
    pi: real,
    sin: real -> real,
    cos: real -> real,
    arcsin: real -> real,
    sqrt: real -> real,
    exp: real -> real)

  /** The identities of the true functions that the model relies on. */
  ghost predicate Lawful(lib: Lib) {
    && lib.pi > 0.0
    && (forall t :: lib.sin(t) * lib.sin(t) + lib.cos(t) * lib.cos(t) == 1.0)
    && (forall x :: 0.0 <= x ==> 0.0 <= lib.sqrt(x) && lib.sqrt(x) * lib.sqrt(x) == x)
  }

  /** The square root exceeds a nonnegative bound exactly when its argument exceeds the
      bound's square. */
  lemma SqrtExceeds(lib: Lib, x: real, t: real)
    requires Lawful(lib)
    requires 0.0 <= x && 0.0 <= t
    ensures lib.sqrt(x) > t <==> x > t * t
  {
    var s := lib.sqrt(x);
    assert 0.0 <= s && s * s == x;
    if s > t {
      SquareStrictlyMonotone(t, s);
      calc { x; == s * s; > t * t; }
    } else {
      SquareMonotone(s, t);
      calc { x; == s * s; <= t * t; }
    }
  }

  /** The square root stays below a nonnegative bound exactly when its argument stays below
      the bound's square. */
  lemma SqrtBelow(lib: Lib, x: real, t: real)
    requires Lawful(lib)
    requires 0.0 <= x && 0.0 <= t
    ensures lib.sqrt(x) < t <==> x < t * t
  {
    var s := lib.sqrt(x);
    assert 0.0 <= s && s * s == x;
    if s < t {
      SquareStrictlyMonotone(s, t);
      calc { x; == s * s; < t * t; }
    } else {
      SquareMonotone(t, s);
      calc { x; == s * s; >= t * t; }
    }
  }

  /** The square root of a square of a nonnegative number is that number. */
  lemma SqrtOfSquare(lib: Lib, t: real)
    requires Lawful(lib)
    requires 0.0 <= t
    ensures lib.sqrt(t * t) == t
  {
    SquareNonnegative(t);
    SqrtExceeds(lib, t * t, t);
    SqrtBelow(lib, t * t, t);
  }

  /** The absolute value. */
  function Abs(x: real): (r: real)
    ensures r >= 0.0 && (r == x || r == -x)
  {
    if x < 0.0 then -x else x
  }

  /** Squaring is strictly increasing on the nonnegative reals. */
  lemma SquareStrictlyMonotone(a: real, b: real)
    requires 0.0 <= a < b
    ensures a * a < b * b
  {
    var p := (b - a) * (b + a);
    MulPositive(b - a, b + a);
    assert b * b == a * a + p;
  }

  /** Squaring is increasing on the nonnegative reals. */
  lemma SquareMonotone(a: real, b: real)
    requires 0.0 <= a <= b
    ensures a * a <= b * b
  {
    if a < b { SquareStrictlyMonotone(a, b); }
  }

  /** The square root is strictly positive on positive arguments. */
  lemma SqrtPositive(lib: Lib, x: real)
    requires Lawful(lib)
    requires 0.0 < x
    ensures lib.sqrt(x) > 0.0
  {
    SqrtExceeds(lib, x, 0.0);
  }

  /** The free-space Green's function exp(i k d) / (4 pi d) for a complex wavenumber
      k = kr + i ki: the imaginary part of k attenuates the wave as exp(-ki d). */
  function Green(lib: Lib, k: Complex, d: real): (g: Complex)
    requires Lawful(lib)
    requires d > 0.0
  {
    var decay := lib.exp(-k.im * d);
    var phase := k.re * d;
    var w := 4.0 * lib.pi * d;
    Complex(decay * lib.cos(phase) / w, decay * lib.sin(phase) / w)
  }

  // Order, division and association facts on plain reals, and complex scaling.

  lemma MulLeqRight(a: real, b: real, c: real)
    requires a <= b && c >= 0.0
    ensures a * c <= b * c
  {
  }

  lemma QuotientPositive(x: real, d: real)
    requires d > 0.0 && x / d >= 0.5
    ensures x > 0.0
  {
    assert x == (x / d) * d;
    MulPositive(x / d, d);
  }

  lemma DivPositive(a: real, b: real)
    requires a > 0.0 && b > 0.0
    ensures a / b > 0.0
  {
  }

  lemma DivNonnegative(a: real, b: real)
    requires a >= 0.0 && b > 0.0
    ensures a / b >= 0.0
  {
  }

  lemma MulStrict(a: real, b: real, c: real)
    requires a < b && c > 0.0
    ensures c * a < c * b
  {
  }

  /** Division by a positive number preserves strict order. */
  lemma DivStrictMonotone(a: real, b: real, c: real)
    requires a < b && c > 0.0
    ensures a / c < b / c
  {
  }

  lemma DivInjective(a: real, b: real, c: real)
    requires c > 0.0 && a != b
    ensures a / c != b / c
  {
  }

  lemma MulCancel(a: real, b: real, c: real)
    requires a != 0.0 && b != c
    ensures a * b != a * c
  {
  }

  lemma Assoc(a: real, b: real, c: real)
    ensures (a * b) * c == a * (b * c)
  {
  }

  lemma Distribute(c: real, x: real, y: real)
    ensures c * x + c * y == c * (x + y)
  {
  }

  lemma QuotientScale(a: real, n: real, f: real, c: real)
    requires c != 0.0
    ensures a * (n * f) / c == n * (a * f / c)
  {
    var q := a * f / c;
    assert q * c == a * f;
    assert (n * q) * c == a * (n * f);
  }

  lemma Commute3(a: real, x: real, y: real)
    ensures a * (x * y) == x * (a * y)
  {
  }

  lemma DivCancel(a: real, b: real)
    requires a != 0.0
    ensures a * (b / a) == b
  {
  }

  lemma ScaleInverse(s: real, a: Complex)
    requires s != 0.0
    ensures Scale(s, Scale(1.0 / s, a)) == a
  {
    assert s * (1.0 / s) == 1.0;
    assert s * (1.0 / s * a.re) == a.re;
    assert s * (1.0 / s * a.im) == a.im;
  }
}

=== FILE: outcome.dfy ===
/** Failure-carrying results shared by every part of the model. */
module Outcome {

  /** An optional value. */
  datatype Option<+T> = None | Some(value: T)

  /** A value, or the reason the computation stopped. */
  datatype Result<+T> = Success(value: T) | Failure(error: Error)

  /** The ways the modelled computations stop instead of producing a value.
      Each names the Python or numpy behaviour it stands for. */
  datatype Error =
      /** division of two Python floats by zero raises ZeroDivisionError */
    | ZeroDivision
      /** `int` of a NaN or infinite float raises ValueError/OverflowError */
    | NonFiniteInteger
      /** an orientation other than the x or z axis leaves plain lists, which the compiled
          summation rejects */
    | UnknownAxis
      /** the calibration amplitude is infinite or NaN */
    | NonFiniteAmplitude
      /** a field divided voxel by voxel by a grid with a zero entry becomes infinite or NaN */
    | NonFiniteField
      /** indexing harmonic 0 of an empty harmonic stack */
    | EmptyStack
      /** the forcing table has no entry for this harmonic */
    | UnsupportedHarmonic
      /** an array whose size disagrees with the grid cannot be reshaped */
    | ShapeMismatch
}

=== FILE: scattering.dfy ===
/** The set-up and post-processing of the density-contrast scattering demo
    (demo/acoustics/sphere_density_contrast.py): the per-voxel material grids built from the
    boolean mask of the scatterer, the masked right-hand side and its flattening, and the
    reshaping of the solution into the total field. The operators and the linear solver
    live outside the modelled files and appear as parameters. */
module Scattering {
  import opened Maths
  import opened Outcome
  import opened Grids

  /** The four material grids of lines 68-79. numpy stores them as complex arrays; `Dr`,
      `rho_ratio` and `RHO` only ever hold real values and are kept real here. */
  datatype Contrast = Contrast(mr: Grid<Complex>, dr: Grid<real>, rhoRatio: Grid<real>, rho: Grid<real>)

  /** Every grid of the contrast has shape (l, m, n). */
  predicate ContrastShaped(c: Contrast, l: nat, m: nat, n: nat) {
    IsGrid(c.mr, l, m, n) && IsGrid(c.dr, l, m, n) && IsGrid(c.rhoRatio, l, m, n) && IsGrid(c.rho, l, m, n)
  }

  /** refInd^2 - 1, the permittivity contrast inside the scatterer. */
  function PermittivityContrast(refInd: Complex): Complex {
    Sub(Mul(refInd, refInd), One)
  }

  /** Lines 68-79. The Python float division rho0 / rho1 raises when rho1 is zero. */
  function ContrastFields(mask: Grid<bool>, refInd: Complex, rho0: real, rho1: real, l: nat, m: nat, n: nat): (r: Result<Contrast>)
    requires IsGrid(mask, l, m, n)
    ensures r.Failure? <==> rho1 == 0.0
    ensures r.Failure? ==> r.error == ZeroDivision
    ensures r.Success? ==> ContrastShaped(r.value, l, m, n)
    ensures r.Success? ==> forall i, j, k :: 0 <= i < l && 0 <= j < m && 0 <= k < n ==>
      && r.value.mr[i][j][k] == (if mask[i][j][k] then PermittivityContrast(refInd) else Zero)
      && r.value.dr[i][j][k] == (if mask[i][j][k] then rho0 / rho1 - 1.0 else 0.0)
      && r.value.rhoRatio[i][j][k] == (if mask[i][j][k] then rho0 / rho1 else 1.0)
      && r.value.rho[i][j][k] == (if mask[i][j][k] then rho1 else rho0)
  {
    if rho1 == 0.0 then Failure(ZeroDivision)
    else
      var mr := AssignWhere(Fill(l, m, n, Zero), mask, PermittivityContrast(refInd), l, m, n);
      var dr := AssignWhere(Fill(l, m, n, 0.0), mask, rho0 / rho1 - 1.0, l, m, n);
      var ratio := AssignWhere(Fill(l, m, n, 1.0), mask, rho0 / rho1, l, m, n);
      var inside := AssignWhere(Fill(l, m, n, 1.0), mask, rho1, l, m, n);
      var rho := AssignWhere(inside, Invert(mask, l, m, n), rho0, l, m, n);
      Success(Contrast(mr, dr, ratio, rho))
  }

  /** Without a density jump there is no density contrast: `Dr` vanishes identically. */
  lemma NoDensityJump(mask: Grid<bool>, refInd: Complex, rho: real, l: nat, m: nat, n: nat)
    requires IsGrid(mask, l, m, n) && rho != 0.0
    ensures ContrastFields(mask, refInd, rho, rho, l, m, n).Success?
    ensures ContrastFields(mask, refInd, rho, rho, l, m, n).value.dr == Fill(l, m, n, 0.0)
  {
    var c := ContrastFields(mask, refInd, rho, rho, l, m, n).value;
    GridExtensionality(c.dr, Fill(l, m, n, 0.0), l, m, n);
  }

  /** The grids agree with one another at every voxel, inside and outside the scatterer:
      `Dr` = `rho_ratio` - 1 and `RHO` * `rho_ratio` = rho0. */
  lemma ContrastConsistent(mask: Grid<bool>, refInd: Complex, rho0: real, rho1: real, l: nat, m: nat, n: nat)
    requires IsGrid(mask, l, m, n) && rho1 != 0.0
    ensures var c := ContrastFields(mask, refInd, rho0, rho1, l, m, n).value;
      forall i, j, k :: 0 <= i < l && 0 <= j < m && 0 <= k < n ==>
        && c.dr[i][j][k] == c.rhoRatio[i][j][k] - 1.0
        && c.rho[i][j][k] * c.rhoRatio[i][j][k] == rho0
  {
    var c := ContrastFields(mask, refInd, rho0, rho1, l, m, n).value;
    forall i, j, k | 0 <= i < l && 0 <= j < m && 0 <= k < n
      ensures c.rho[i][j][k] * c.rhoRatio[i][j][k] == rho0
    {
      if mask[i][j][k] {
        DivCancel(rho1, rho0);
      }
    }
  }

  /** With both densities nonzero the density grid has no zero entry, so dividing by it
      (line 143) is well defined. */
  lemma DensityNonzero(mask: Grid<bool>, refInd: Complex, rho0: real, rho1: real, l: nat, m: nat, n: nat)
    requires IsGrid(mask, l, m, n) && rho1 != 0.0 && rho0 != 0.0
    ensures NoZeroEntry(ContrastFields(mask, refInd, rho0, rho1, l, m, n).value.rho, l, m, n)
  {
  }

  /** No voxel of the grid is zero. */
  predicate NoZeroEntry(g: Grid<real>, l: nat, m: nat, n: nat)
    requires IsGrid(g, l, m, n)
  {
    forall i, j, k | 0 <= i < l && 0 <= j < m && 0 <= k < n :: g[i][j][k] != 0.0
  }

  /** Line 143: `Mr / RHO`, voxel by voxel. A zero density gives an infinite or NaN entry. */
  function ScaledPermittivity(c: Contrast, l: nat, m: nat, n: nat): (r: Result<Grid<Complex>>)
    requires ContrastShaped(c, l, m, n)
    ensures r.Failure? <==> !NoZeroEntry(c.rho, l, m, n)
    ensures r.Failure? ==> r.error == NonFiniteField
    ensures r.Success? ==> IsGrid(r.value, l, m, n)
    ensures r.Success? ==> forall i, j, k :: 0 <= i < l && 0 <= j < m && 0 <= k < n ==>
      Scale(c.rho[i][j][k], r.value[i][j][k]) == c.mr[i][j][k]
  {
    if !NoZeroEntry(c.rho, l, m, n) then Failure(NonFiniteField)
    else
      var g := seq(l, i requires 0 <= i < l =>
        seq(m, j requires 0 <= j < m =>
          seq(n, k requires 0 <= k < n => Scale(1.0 / c.rho[i][j][k], c.mr[i][j][k]))));
      InverseScales(c, g, l, m, n);
      Success(g)
  }

  lemma InverseScales(c: Contrast, g: Grid<Complex>, l: nat, m: nat, n: nat)
    requires ContrastShaped(c, l, m, n) && IsGrid(g, l, m, n) && NoZeroEntry(c.rho, l, m, n)
    requires forall i, j, k :: 0 <= i < l && 0 <= j < m && 0 <= k < n ==>
      g[i][j][k] == Scale(1.0 / c.rho[i][j][k], c.mr[i][j][k])
    ensures forall i, j, k :: 0 <= i < l && 0 <= j < m && 0 <= k < n ==>
      Scale(c.rho[i][j][k], g[i][j][k]) == c.mr[i][j][k]
  {
    forall i, j, k | 0 <= i < l && 0 <= j < m && 0 <= k < n
      ensures Scale(c.rho[i][j][k], g[i][j][k]) == c.mr[i][j][k]
    {
      ScaleInverse(c.rho[i][j][k], c.mr[i][j][k]);
    }
  }

  /** The scaled permittivity of a scatterer vanishes outside it. */
  lemma ScaledPermittivityOutside(mask: Grid<bool>, refInd: Complex, rho0: real, rho1: real, l: nat, m: nat, n: nat)
    requires IsGrid(mask, l, m, n) && rho0 != 0.0 && rho1 != 0.0
    ensures var c := ContrastFields(mask, refInd, rho0, rho1, l, m, n).value;
      && ScaledPermittivity(c, l, m, n).Success?
      && forall i, j, k :: 0 <= i < l && 0 <= j < m && 0 <= k < n && !mask[i][j][k] ==>
           ScaledPermittivity(c, l, m, n).value[i][j][k] == Zero
  {
    var c := ContrastFields(mask, refInd, rho0, rho1, l, m, n).value;
    DensityNonzero(mask, refInd, rho0, rho1, l, m, n);
    var g := ScaledPermittivity(c, l, m, n).value;
    forall i, j, k | 0 <= i < l && 0 <= j < m && 0 <= k < n && !mask[i][j][k]
      ensures g[i][j][k] == Zero
    {
      ScaleZeroIff(c.rho[i][j][k], g[i][j][k]);
    }
  }

  /** Lines 99-101: the incident field inside the scatterer and zero outside it. */
  function RightHandSide(mask: Grid<bool>, uinc: Grid<Complex>, l: nat, m: nat, n: nat): (g: Grid<Complex>)
    requires IsGrid(mask, l, m, n) && IsGrid(uinc, l, m, n)
    ensures IsGrid(g, l, m, n)
    ensures forall i, j, k :: 0 <= i < l && 0 <= j < m && 0 <= k < n ==>
      g[i][j][k] == (if mask[i][j][k] then uinc[i][j][k] else Zero)
  {
    CopyWhere(Fill(l, m, n, Zero), mask, uinc, l, m, n)
  }

  /** Line 102: the right-hand side flattened in column-major order. Entry i + l j + l m k
      is the incident field at voxel (i, j, k) inside the scatterer and zero outside, and
      reshaping the vector back restores the grid. */
  lemma RightHandSideVector(mask: Grid<bool>, uinc: Grid<Complex>, l: nat, m: nat, n: nat)
    requires IsGrid(mask, l, m, n) && IsGrid(uinc, l, m, n)
    ensures var g := RightHandSide(mask, uinc, l, m, n);
      && |Flatten(g, l, m, n)| == l * m * n
      && Unflatten(Flatten(g, l, m, n), l, m, n) == g
      && forall i, j, k :: 0 <= i < l && 0 <= j < m && 0 <= k < n ==>
           Flatten(g, l, m, n)[FlatIndex(i, j, k, l, m, n)] == (if mask[i][j][k] then uinc[i][j][k] else Zero)
  {
    var g := RightHandSide(mask, uinc, l, m, n);
    UnflattenFlatten(g, l, m, n);
    FlattenAtAll(g, l, m, n);
  }

  /** `mvp_potential_x_perm` (line 142) with the all-true mask: the volume potential of the
      solution weighted by `Mr / RHO`; it lives outside the modelled files. */
  type PotentialOp = (seq<Complex>, Grid<Complex>) -> seq<Complex>

  ghost predicate PotentialShapePreserving(op: PotentialOp) {
    forall v, w :: |op(v, w)| == |v|
  }

  /** What the post-processing produces: the solution reshaped into the grid `J` and the
      total field `U`. */
  datatype Reconstruction = Reconstruction(current: Grid<Complex>, total: Grid<Complex>)

  /** Lines 135 and 142-148: `J = sol.reshape(L, M, N, order='F')` and
      `U = Uinc + Utemp`. A solution of the wrong length cannot be reshaped. */
  function Reconstruct(potential: PotentialOp, sol: seq<Complex>, scaledPerm: Grid<Complex>,
                       uinc: Grid<Complex>, l: nat, m: nat, n: nat): (r: Result<Reconstruction>)
    requires PotentialShapePreserving(potential) && IsGrid(uinc, l, m, n)
    ensures r.Failure? <==> |sol| != l * m * n
    ensures r.Failure? ==> r.error == ShapeMismatch
    ensures r.Success? ==> IsGrid(r.value.current, l, m, n) && IsGrid(r.value.total, l, m, n)
    ensures r.Success? ==> Flatten(r.value.current, l, m, n) == sol
    ensures r.Success? ==> forall i, j, k :: 0 <= i < l && 0 <= j < m && 0 <= k < n ==>
      r.value.total[i][j][k] == Add(uinc[i][j][k], potential(sol, scaledPerm)[FlatIndex(i, j, k, l, m, n)])
  {
    if |sol| != l * m * n then Failure(ShapeMismatch)
    else
      var scattered := Unflatten(potential(sol, scaledPerm), l, m, n);
      FlattenUnflatten(sol, l, m, n);
      Success(Reconstruction(Unflatten(sol, l, m, n), AddGrids(uinc, scattered, l, m, n)))
  }

  /** Voxel-wise sum of two grids. */
  function AddGrids(a: Grid<Complex>, b: Grid<Complex>, l: nat, m: nat, n: nat): (g: Grid<Complex>)
    requires IsGrid(a, l, m, n) && IsGrid(b, l, m, n)
    ensures IsGrid(g, l, m, n)
  {
    seq(l, i requires 0 <= i < l =>
      seq(m, j requires 0 <= j < m =>
        seq(n, k requires 0 <= k < n => Add(a[i][j][k], b[i][j][k]))))
  }

  /** The scattered part of the total field, read back in column-major order, is exactly
      the operator's output: U - Uinc flattens to `Utemp`'s vector. */
  lemma ScatteredFieldRoundTrip(potential: PotentialOp, sol: seq<Complex>, scaledPerm: Grid<Complex>,
                                uinc: Grid<Complex>, l: nat, m: nat, n: nat)
    requires PotentialShapePreserving(potential) && IsGrid(uinc, l, m, n)
    requires |sol| == l * m * n
    ensures var u := Reconstruct(potential, sol, scaledPerm, uinc, l, m, n).value.total;
      forall p :: 0 <= p < l * m * n ==>
        Sub(Flatten(u, l, m, n)[p], Flatten(uinc, l, m, n)[p]) == potential(sol, scaledPerm)[p]
  {
    var u := Reconstruct(potential, sol, scaledPerm, uinc, l, m, n).value.total;
    forall p | 0 <= p < l * m * n
      ensures Sub(Flatten(u, l, m, n)[p], Flatten(uinc, l, m, n)[p]) == potential(sol, scaledPerm)[p]
    {
      var v := Unravel(p, l, m, n);
    }
  }
}

=== FILE: transducer.dfy ===
/** The field radiated by the tiled bowl: every source is a monopole, and a source closer
    than 1e-3 to an evaluation point is skipped (vines/fields/transducers.py, lines 59-79). */
module Transducer {
  import opened Maths
  import opened Outcome
  import opened Bowl

  /** Line 70: sources at distance 1e-3 or less from a point do not contribute to it. */
  const MinDistance: real := 0.001

  /** Lines 67-69: the Euclidean distance. */
  function Dist(lib: Lib, p: Point, q: Point): real {
    lib.sqrt(SqDist(p, q))
  }

  /** The squared distance is never negative, so `Dist` is a true square root. */
  lemma SqDistNonnegative(p: Point, q: Point)
    ensures SqDist(p, q) >= 0.0
  {
    SquareNonnegative(p.x - q.x);
    SquareNonnegative(p.y - q.y);
    SquareNonnegative(p.z - q.z);
  }

  /** Line 70: the source at `src` contributes at `pt`. */
  predicate Contributes(lib: Lib, src: Point, pt: Point) {
    Dist(lib, src, pt) > MinDistance
  }

  /** The distance test can be read without the square root: a source contributes exactly
      when its squared distance exceeds 1e-6. */
  lemma ContributesIff(lib: Lib, src: Point, pt: Point)
    requires Lawful(lib)
    ensures Contributes(lib, src, pt) <==> SqDist(src, pt) > MinDistance * MinDistance
  {
    SqDistNonnegative(src, pt);
    SqrtExceeds(lib, SqDist(src, pt), MinDistance);
  }

  /** Line 71: what one source adds to the running sum at `pt`. */
  function Contribution(lib: Lib, k: Complex, src: Point, pt: Point): Complex
    requires Lawful(lib)
  {
    if Contributes(lib, src, pt) then Green(lib, k, Dist(lib, src, pt)) else Zero
  }

  /** Lines 65-72: the unscaled field at `pt`, accumulated over the sources in order. */
  function PointField(lib: Lib, k: Complex, sources: seq<Point>, pt: Point): Complex
    requires Lawful(lib)
  {
    if sources == [] then Zero
    else Add(PointField(lib, k, sources[..|sources| - 1], pt), Contribution(lib, k, sources[|sources| - 1], pt))
  }

  /** The sources that contribute at `pt`, in their original order. */
  function Passing(lib: Lib, sources: seq<Point>, pt: Point): (r: seq<Point>)
    ensures |r| <= |sources|
    ensures forall q :: q in r <==> q in sources && Contributes(lib, q, pt)
  {
    if sources == [] then []
    else
      var last := sources[|sources| - 1];
      Passing(lib, sources[..|sources| - 1], pt) + (if Contributes(lib, last, pt) then [last] else [])
  }

  /** Filtering keeps multiplicities: a source listed twice that passes the test is summed
      twice, and one that fails it not at all. */
  lemma {:induction false} PassingCounts(lib: Lib, sources: seq<Point>, pt: Point)
    ensures forall q ::
      multiset(Passing(lib, sources, pt))[q] == (if Contributes(lib, q, pt) then multiset(sources)[q] else 0)
  {
    if sources != [] {
      var init, last := sources[..|sources| - 1], sources[|sources| - 1];
      PassingCounts(lib, init, pt);
      assert sources == init + [last];
    }
  }

  /** The Green's function of each of the given sources at `pt`, all of which contribute. */
  function Greens(lib: Lib, k: Complex, sources: seq<Point>, pt: Point): (g: seq<Complex>)
    requires Lawful(lib)
    requires forall q :: q in sources ==> Contributes(lib, q, pt)
    ensures |g| == |sources|
  {
    seq(|sources|, i requires 0 <= i < |sources| =>
      assert sources[i] in sources;
      assert Contributes(lib, sources[i], pt);
      assert Dist(lib, sources[i], pt) > 0.0;
      Green(lib, k, Dist(lib, sources[i], pt)))
  }

  /** The accumulated field is the plain sum of the Green's functions of the sources that
      pass the distance test: skipping a source is the same as leaving it out. */
  lemma {:induction false} PointFieldIsFilteredSum(lib: Lib, k: Complex, sources: seq<Point>, pt: Point)
    requires Lawful(lib)
    ensures PointField(lib, k, sources, pt) == Sum(Greens(lib, k, Passing(lib, sources, pt), pt))
  {
    if sources != [] {
      var init, last := sources[..|sources| - 1], sources[|sources| - 1];
      PointFieldIsFilteredSum(lib, k, init, pt);
      var before := Passing(lib, init, pt);
      var gs := Greens(lib, k, before, pt);
      if Contributes(lib, last, pt) {
        var after := before + [last];
        assert Passing(lib, sources, pt) == after;
        var gs' := Greens(lib, k, after, pt);
        assert gs'[..|gs'| - 1] == gs;
        assert gs'[|gs'| - 1] == Green(lib, k, Dist(lib, last, pt));
      } else {
        assert Passing(lib, sources, pt) == before;
        assert Add(Sum(gs), Zero) == Sum(gs);
      }
    }
  }

  /** Where no source passes the distance test the field is zero. */
  lemma NoPassingSource(lib: Lib, k: Complex, sources: seq<Point>, pt: Point)
    requires Lawful(lib)
    requires forall q :: q in sources ==> !Contributes(lib, q, pt)
    ensures PointField(lib, k, sources, pt) == Zero
  {
    PointFieldIsFilteredSum(lib, k, sources, pt);
    NothingPasses(lib, sources, pt);
  }

  lemma {:induction false} NothingPasses(lib: Lib, sources: seq<Point>, pt: Point)
    requires forall q :: q in sources ==> !Contributes(lib, q, pt)
    ensures Passing(lib, sources, pt) == []
  {
    if sources != [] {
      var init := sources[..|sources| - 1];
      assert forall q :: q in init ==> q in sources;
      NothingPasses(lib, init, pt);
      assert sources[|sources| - 1] in sources;
    }
  }

  /** Appending one source adds its contribution. */
  lemma PointFieldSnoc(lib: Lib, k: Complex, s: seq<Point>, q: Point, pt: Point)
    requires Lawful(lib)
    ensures PointField(lib, k, s + [q], pt) == Add(PointField(lib, k, s, pt), Contribution(lib, k, q, pt))
  {
    assert (s + [q])[..|s|] == s;
  }

  /** Superposition: the field of two source sets side by side is the sum of their fields. */
  lemma {:induction false} PointFieldAppend(lib: Lib, k: Complex, s1: seq<Point>, s2: seq<Point>, pt: Point)
    requires Lawful(lib)
    ensures PointField(lib, k, s1 + s2, pt) == Add(PointField(lib, k, s1, pt), PointField(lib, k, s2, pt))
  {
    if s2 == [] {
      assert s1 + s2 == s1;
    } else {
      var init, last := s2[..|s2| - 1], s2[|s2| - 1];
      var c := Contribution(lib, k, last, pt);
      var f1, f2 := PointField(lib, k, s1, pt), PointField(lib, k, init, pt);
      assert s2 == init + [last];
      assert s1 + s2 == (s1 + init) + [last];
      PointFieldSnoc(lib, k, s1 + init, last, pt);
      PointFieldSnoc(lib, k, init, last, pt);
      PointFieldAppend(lib, k, s1, init, pt);
      AddAssoc(f1, f2, c);
    }
  }

  /** The field is a function of the source-to-point distances only: moving sources and
      point by the same re-orientation leaves it unchanged. */
  lemma {:induction false} PointFieldReorient(lib: Lib, k: Complex, axis: Axis, focus: Point, sources: seq<Point>, pt: Point)
    requires Lawful(lib)
    ensures PointField(lib, k, ReorientAll(axis, focus, sources), Reorient(axis, focus, pt)) == PointField(lib, k, sources, pt)
  {
    if sources != [] {
      var init := sources[..|sources| - 1];
      PointFieldReorient(lib, k, axis, focus, init, pt);
      assert ReorientAll(axis, focus, sources)[..|sources| - 1] == ReorientAll(axis, focus, init);
      ReorientIsometry(axis, focus, sources[|sources| - 1], pt);
    }
  }

  /** The field at every point, scaled by the source area `a` (line 79: `p * a`). */
  function Radiate(lib: Lib, k: Complex, sources: seq<Point>, points: seq<Point>, a: real): (p: seq<Complex>)
    requires Lawful(lib)
    ensures |p| == |points|
    ensures forall i :: 0 <= i < |points| ==>
      p[i] == Scale(a, Sum(Greens(lib, k, Passing(lib, sources, points[i]), points[i])))
  {
    AllFilteredSums(lib, k, sources, points);
    seq(|points|, i requires 0 <= i < |points| => Scale(a, PointField(lib, k, sources, points[i])))
  }

  lemma AllFilteredSums(lib: Lib, k: Complex, sources: seq<Point>, points: seq<Point>)
    requires Lawful(lib)
    ensures forall i :: 0 <= i < |points| ==>
      PointField(lib, k, sources, points[i]) == Sum(Greens(lib, k, Passing(lib, sources, points[i]), points[i]))
  {
    forall i | 0 <= i < |points|
      ensures PointField(lib, k, sources, points[i]) == Sum(Greens(lib, k, Passing(lib, sources, points[i]), points[i]))
    {
      PointFieldIsFilteredSum(lib, k, sources, points[i]);
    }
  }

  /** Lines 61-73: `eval_source`, the loop over the evaluation points. */
  method EvalSource(lib: Lib, k: Complex, sources: seq<Point>, points: seq<Point>) returns (p: seq<Complex>)
    requires Lawful(lib)
    ensures |p| == |points|
    ensures forall i :: 0 <= i < |points| ==>
      p[i] == Sum(Greens(lib, k, Passing(lib, sources, points[i]), points[i]))
  {
    AllFilteredSums(lib, k, sources, points);
    p := [];
    var i := 0;
    while i < |points|
      invariant i <= |points|
      invariant |p| == i
      invariant forall i' :: 0 <= i' < i ==> p[i'] == PointField(lib, k, sources, points[i'])
    {
      var temp := FieldAt(lib, k, sources, points[i]);
      p := p + [temp];
      i := i + 1;
    }
  }

  /** Lines 64-72: the inner loop over the sources for one evaluation point. */
  method FieldAt(lib: Lib, k: Complex, sources: seq<Point>, pt: Point) returns (temp: Complex)
    requires Lawful(lib)
    ensures temp == Sum(Greens(lib, k, Passing(lib, sources, pt), pt))
  {
    temp := Zero;
    var j := 0;
    while j < |sources|
      invariant j <= |sources|
      invariant temp == PointField(lib, k, sources[..j], pt)
    {
      var dist := Dist(lib, sources[j], pt);
      assert sources[..j + 1] == sources[..j] + [sources[j]];
      PointFieldSnoc(lib, k, sources[..j], sources[j], pt);
      AddZero(temp);
      if dist > MinDistance {
        temp := Add(temp, Green(lib, k, dist));
      }
      j := j + 1;
    }
    assert sources[..j] == sources;
    PointFieldIsFilteredSum(lib, k, sources, pt);
  }

  /** What `bowl_transducer` returns: the re-oriented source positions and the field. */
  datatype Radiated = Radiated(sources: seq<Point>, pressure: seq<Complex>)

  /** Lines 1-79: tile the bowl, re-orient it, and evaluate the area-scaled field. The
      tiling errors come first; an axis that neither "z" nor "x" contains leaves the source
      coordinates as plain lists, which the compiled `eval_source` rejects. */
  function BowlTransducer(lib: Lib, k: Complex, focalLength: real, focus: Point, radius: real,
                          nElements: int, apertureRadius: real, points: seq<Point>, axis: string): (r: Result<Radiated>)
    requires Lawful(lib) && nElements >= 1
    ensures PlanTiling(lib, focalLength, radius, nElements, apertureRadius).Failure? ==>
      r == Failure(PlanTiling(lib, focalLength, radius, nElements, apertureRadius).error)
    ensures PlanTiling(lib, focalLength, radius, nElements, apertureRadius).Success? ==>
      (r.Failure? <==> ParseAxis(axis).None?) && (r.Failure? ==> r.error == UnknownAxis)
    ensures r.Success? ==>
      var lay := PlanTiling(lib, focalLength, radius, nElements, apertureRadius).value;
      var centre := AxisCentre(ParseAxis(axis).value, focus);
      && r.value.sources == ReorientAll(ParseAxis(axis).value, focus, Tiling(lib, focalLength, lay))
      && |r.value.sources| == SourceCount(lib, lay, BandsVisited(lay))
      && (forall q :: q in r.value.sources ==> SqDist(q, centre) == focalLength * focalLength)
      && |r.value.pressure| == |points|
      && (forall i :: 0 <= i < |points| ==>
            r.value.pressure[i] == Scale(lay.area, Sum(Greens(lib, k, Passing(lib, r.value.sources, points[i]), points[i]))))
  {
    match PlanTiling(lib, focalLength, radius, nElements, apertureRadius)
    case Failure(e) => Failure(e)
    case Success(lay) =>
      match ParseAxis(axis)
      case None => Failure(UnknownAxis)
      case Some(ax) =>
        var tiled := Tiling(lib, focalLength, lay);
        TilingCount(lib, focalLength, lay, BandsVisited(lay));
        TilingOnSphere(lib, focalLength, lay, BandsVisited(lay));
        var sources := ReorientAll(ax, focus, tiled);
        Success(Radiated(sources, Radiate(lib, k, sources, points, lay.area)))
  }
}
